=== FILE: README.md ===
# mdp-intervention, modelled in Dafny

The repository decides where to intervene in a small Markov decision process.
It works as a pipeline of scripts:

1. **Enumerate policies** (`1_generate_polity.py`). Every assignment of
   `no_intervention` / `intervene` to the non-terminal states is built, in
   `itertools.product` order. The terminal state `S5` is forced to
   `no_intervention`. An assignment is kept when the intervention costs of the
   states it intervenes in add up to at most 1.5.
2. **Simulate every policy** (`2_simulate_all.py`, with `run_simulation`
   duplicated in `simulate.py`, and the helpers of `src/utils.py`). A batch
   of 10000 runs of at most 10 steps is run per policy. Each step charges
   the cost of the policy's action, stops at a terminal state, and otherwise
   samples the next state. The script writes one summary row per policy and
   one metadata entry listing the states the policy intervenes in.
3. **Value of information** (`3_add_voi_to_metadata.py`, and the first part
   of `5_analysis_extended.py`). The baseline is the average cost of the first
   zero-cost summary row. Each policy's VoI is the baseline minus its average
   cost. Its VoI per cost is VoI divided by the intervention cost when that
   is positive, and 0 otherwise.
4. **Analysis tables** (`4_analysis_all.py`, `5_analysis_extended.py`).
   These are the summary sorted by average cost and its top 5, the top 10 by
   VoI per cost, and the per-state VoI matrix. `5_analysis_extended.py` also
   means to count, per state, how often the policies intervene there, over
   all policies and over those with a success rate of at least 95%. As
   written it never gets there when its merged table has a row: line 52
   hands the already-parsed `intervene_states` lists to `ast.literal_eval`,
   which raises ValueError (see "## Findings"). The model gives both the
   script as written and the counts it evidently intends.

Each script is one Dafny module: `PolicyGeneration`, `Simulation` with
`Utils`, `Driver`, `Voi`, `AnalysisAll` and `AnalysisExtended`. The shared
vocabulary lives in `Seqs`, `Dicts` (Python's insertion-ordered dict), `Mdp`
(the MDP, the policy type and the exceptions as an `Error` datatype) and
`Sorting` (`sort_values` and `head`).

Loops that update state step by step are methods with loop invariants.
Each such method is proved equal to a specification function:
- `PolicyGeneration.GeneratePolicies` and `FilterProduct`;
- `Simulation.RunSimulation` and `RunOnce`;
- `Driver.SimulateAll`;
- `Voi.AddVoI`, which updates an array of metadata entries in place.

The properties are proved about those functions. A Python exception is an
`Err` value that names the exception. A KeyError also names what was
missing: the state and action of a cost or transition, or the policy entry
without a `VoI`. A sampling error names the state and action whose row could
not be drawn from. The IndexError of a missing baseline row and the
ValueError of `ast.literal_eval` name nothing more. The model proves exactly
when each one happens.

Python's global random generator is a parameter. It is the stream
`rng: nat -> real` of the numbers `random.random()` returns, together with
the index of the next unused number. Every call of `sample_next_state`
consumes one number, and the stream is shared by all runs and all policies,
as in the scripts. The MDP, the policy list, the summary and the metadata
are parameters in place of the files they are read from.

Some details of the scripts, which the model follows:
- **Baseline.** The scripts take the first zero-cost row and raise
  IndexError when there is none. They never check that the row is unique.
- **Errors.** An illegal or missing action is a KeyError on the cost table
  (`MissingCost`). There is no separate policy error.
- **Transition rows.** They are not checked to sum to 1. `random.choices`
  fails only on an empty row or a total weight of 0 or less.
- **Random source.** All runs of all policies share one random stream.
- **Average.** It divides by the constant `NUM_RUNS`, whatever run count
  was used.

## Model

| member | source | states |
|---|---|---|
| Utils.GetAction | src/utils.py:10-13 | the policy's value for a state it maps; `no_intervention` for any other state; so always a policy value or `no_intervention` |
| Utils.SampleNextState | src/utils.py:4-8 | the draw succeeds exactly when the row exists, is non-empty and has a positive total weight; it fails with the KeyError exactly when the state or the action is missing; a successful draw is a key of that transition row |
| Utils.SampleFailures | src/utils.py:5-8 | `random.choices` raises IndexError exactly on an empty row, and ValueError exactly on a non-empty row whose weights total 0 or less |
| Utils.PickIndex | src/utils.py:8 | the index `random.choices` looks up among the running sums is a valid index from the scan's start on |
| Utils.PickedIndex | src/utils.py:6-8 | the picked index is a position of the row's key list |
| Utils.ScaledDraw | src/utils.py:8 | a draw in [0, 1) scaled by a positive total lies in [0, total) |
| Utils.PickIndexSlice | src/utils.py:8 | the picked index is the one whose slice of the cumulative weights contains the point, and its weight is positive |
| Utils.SampleRespectsWeights | src/utils.py:5-8 | the next state is the key whose cumulative-weight slice contains `u * total`; a key of weight 0 or less is never drawn |
| Dicts.Put | 1_generate_polity.py:25 | `d[k] = v` sets the value, keeps an old key in place, appends a new key last, and keeps keys unique |
| Dicts.Values | src/utils.py:7 | `list(d.values())` has one value per key |
| Dicts.ValuesAt | src/utils.py:6-7 | position i of `values()` holds the value of the i-th key of `keys()` |
| Mdp.LookupCost | 2_simulate_all.py:32 | `costs[state][action]` when both keys exist, otherwise the KeyError `MissingCost(state, action)` |
| PolicyGeneration.NonTerminalStates | 1_generate_polity.py:15 | the state list with every occurrence of the terminal state removed, the order of the rest kept |
| PolicyGeneration.NonTerminalStatesDistinct | 1_generate_polity.py:15 | the filtered list holds no terminal state, and has no repeats when the MDP's list has none |
| PolicyGeneration.FirstMissingCost | 1_generate_polity.py:16-19 | the first state, in list order, without an `intervene` cost |
| PolicyGeneration.InterventionCosts | 1_generate_polity.py:16-19 | succeeds exactly when every state has an `intervene` cost, and then maps each state to it; otherwise the KeyError of the first state lacking one |
| PolicyGeneration.Prepend | 1_generate_polity.py:23 | puts one action in front of each candidate, keeping the count |
| PolicyGeneration.Product | 1_generate_polity.py:23 | `product(..., repeat=k)` yields 2^k candidates of length k |
| PolicyGeneration.AllFalse | 1_generate_polity.py:23 | the all-`no_intervention` vector has length k |
| PolicyGeneration.LexLessIrreflexive | 1_generate_polity.py:23 | no candidate comes before itself in product order |
| PolicyGeneration.ProductComplete | 1_generate_polity.py:23 | every assignment of the two actions to k states is yielded |
| PolicyGeneration.ProductOrdered | 1_generate_polity.py:23 | candidates come in strictly increasing lexicographic order, `no_intervention` before `intervene` |
| PolicyGeneration.ProductDistinct | 1_generate_polity.py:23 | each candidate is yielded exactly once |
| PolicyGeneration.ProductFirst | 1_generate_polity.py:23 | the first candidate is all `no_intervention` |
| PolicyGeneration.ZipPolicy | 1_generate_polity.py:24 | the zipped dict is a well-formed ordered dict |
| PolicyGeneration.BuildPolicy | 1_generate_polity.py:24-25 | the policy after the terminal override is a well-formed ordered dict |
| PolicyGeneration.ZipPolicyShape | 1_generate_polity.py:24 | the zipped dict has exactly the states as keys, each mapped to one of the two actions; with distinct states the keys are in state order and each state gets its own action |
| PolicyGeneration.ZipPolicyMembers | 1_generate_polity.py:24 | a state is a key of the zipped dict exactly when it is in the list |
| PolicyGeneration.ZipPolicyOrder | 1_generate_polity.py:24 | with distinct states the keys are in list order |
| PolicyGeneration.ZipPolicyActions | 1_generate_polity.py:24 | each value is `no_intervention` or `intervene` |
| PolicyGeneration.ZipPolicyOwnAction | 1_generate_polity.py:24 | with distinct states, state i is mapped to action i |
| PolicyGeneration.BuildPolicyShape | 1_generate_polity.py:24-25 | every generated policy maps every non-terminal state to an action and the terminal state to `no_intervention`; with distinct states, keys are the states then the terminal, and each state's action is its candidate's |
| PolicyGeneration.LastIndex | 1_generate_polity.py:24 | the last position of a state in the list, -1 exactly when it does not occur; no later position holds it |
| PolicyGeneration.ZipValueIsAction | 1_generate_polity.py:24 | each zipped state's value is the action at its last position in the list: a later pair overwrites an earlier one |
| PolicyGeneration.KeysCost | 1_generate_polity.py:27-30 | the sum over the policy items is non-negative when no intervention cost is negative |
| PolicyGeneration.PolicyCost | 1_generate_polity.py:27-30 | `total_cost` of one policy; its properties are stated by PolicyCostBounds below |
| PolicyGeneration.PolicyCostBounds | 1_generate_polity.py:27-30 | `total_cost` is non-negative when no intervention cost is negative, and 0 for a policy that never intervenes |
| PolicyGeneration.KeysCostIsSelected | 1_generate_polity.py:27-30 | the sum over the policy items equals the sum of the intervention costs of the states assigned `intervene` |
| PolicyGeneration.PolicyCostIsSelected | 1_generate_polity.py:27-30 | with distinct states and the terminal state not among them, `total_cost` is the sum of the intervention costs of exactly the intervened non-terminal states; the terminal state adds nothing |
| PolicyGeneration.KeysCostNoIntervention | 1_generate_polity.py:27-30 | a policy with no `intervene` value costs 0 |
| PolicyGeneration.BaselineCostsNothing | 1_generate_polity.py:24-30 | the all-`no_intervention` candidate has total cost 0 |
| PolicyGeneration.CandidateItem | 1_generate_polity.py:23-36 | the policy-list entry of one candidate; stated by Candidates below and by BuildPolicyShape and PolicyCostBounds above |
| PolicyGeneration.Candidates | 1_generate_polity.py:23-30 | one policy-list entry per candidate, in candidate order |
| PolicyGeneration.GeneratePolicies | 1_generate_polity.py:15-36 | the script's result equals the specification `Generated`: state filter, cost table, then filtered product |
| PolicyGeneration.FilterProduct | 1_generate_polity.py:22-36 | the loop's `valid_policies` equals the entries of the candidates whose cost is within the budget, in candidate order |
| PolicyGeneration.WithinBudget | 1_generate_polity.py:32-36 | every kept entry is within the budget, and no more entries are kept than were offered |
| PolicyGeneration.Generated | 1_generate_polity.py:15-36 | fails exactly when a non-terminal state has no `intervene` cost; otherwise at most 2^k policies for k non-terminal states, each within the budget |
| PolicyGeneration.ScriptPolicies | 1_generate_polity.py:8-9 | with the script's terminal state `S5` and budget 1.5, the list starts with the never-intervening policy at cost 0, and every policy costs at most 1.5 |
| PolicyGeneration.WithinBudgetStep | 1_generate_polity.py:32-36 | one more loop iteration appends the entry exactly when it is within the budget |
| PolicyGeneration.WithinBudgetMembers | 1_generate_polity.py:32-36 | an entry is kept if and only if it is a candidate entry whose cost is within the budget, and it is kept as many times as it is offered |
| PolicyGeneration.WithinBudgetSubsequence | 1_generate_polity.py:32-36 | the kept entries are a subsequence of the candidates |
| PolicyGeneration.WithinBudgetAll | 1_generate_polity.py:32-36 | when every entry is within the budget, all are kept |
| PolicyGeneration.WithinBudgetFirst | 1_generate_polity.py:32-36 | a first entry within the budget is the first one kept |
| PolicyGeneration.CandidatesAreItems | 1_generate_polity.py:23-30 | every entry built is the entry of some full-length action vector |
| PolicyGeneration.CandidatesComplete | 1_generate_polity.py:23-30 | over all vectors of the right length, every vector's entry is built |
| PolicyGeneration.ProductFilterSoundAndComplete | 1_generate_polity.py:23-36 | no kept policy exceeds the budget; every kept policy is a candidate's; no candidate within the budget is dropped; product order is kept |
| PolicyGeneration.GeneratedSoundAndComplete | 1_generate_polity.py:15-36 | the same four facts for the whole script, over the MDP's non-terminal states |
| PolicyGeneration.GeneratedFailsIffMissingCost | 1_generate_polity.py:16-19 | generation fails exactly when a non-terminal state has no `intervene` cost, and then with the KeyError of the first non-terminal state, in state order, that has no `intervene` cost (every earlier one has it), before any policy is produced |
| PolicyGeneration.ProductAllWithinBudget | 1_generate_polity.py:23-36 | when every candidate is within budget, exactly 2^k policies come out, in product order |
| PolicyGeneration.GeneratedStartsWithBaseline | 1_generate_polity.py:23-36 | with a budget of at least 0, the first kept policy is the all-`no_intervention` one, at cost 0 |
| Simulation.RunSimulation | 2_simulate_all.py:24-45 | the outer loop's result equals the specification `Simulate` of `num_runs` runs; the identical copy at simulate.py:8-30 is the same member |
| Simulation.RunOnce | 2_simulate_all.py:27-44 | one run starts at the initial state with cost 0; its record carries the run index and the final state and `total_cost` of the specification `Run`, or its exception (the same body as simulate.py:11-28) |
| Simulation.Advance | 2_simulate_all.py:31-38 | a stopped run stays as it is; otherwise the step fails exactly when the cost lookup fails or a non-terminal state's draw cannot succeed; a successful step charges the policy's action at its table cost, stops exactly at a terminal state, and otherwise moves to the sampled state with one draw used |
| Simulation.Iterate | 2_simulate_all.py:30-38 | the state after k inner-loop iterations; stated by IterateNext, IterateIsRun, IterateSucceeds and IterateSettled |
| Simulation.Run | 2_simulate_all.py:28-38 | one run from the initial state; stated by RunDrawsForward and, through Iterate, IterateIsRun |
| Simulation.Simulate | 2_simulate_all.py:24-45 | the batch of `num_runs` runs; stated by SimulateRecords, SimulateSucceeds and SimulateErrPersists |
| Simulation.IterateNext | 2_simulate_all.py:30-38 | one more inner-loop iteration is one `Advance` step |
| Simulation.IterateIsRun | 2_simulate_all.py:30-38 | after k iterations: at most k charged steps; the first charged state is the initial one; each step took the policy's action at its table cost; each non-terminal step moved to the sampler's pick with its own draw; `total_cost` is the sum of the charged costs; a stopped run ends at the terminal state it charged last; a run cut by the cap charged exactly k steps and stands at the state sampled after the last one |
| Simulation.AdvanceKeepsRun | 2_simulate_all.py:31-38 | one iteration keeps the run description above |
| Simulation.EndsAppend | 2_simulate_all.py:31-38 | charging a step, then stopping or moving to the sampled state, keeps the end-of-run facts |
| Simulation.FollowsPolicyAppend | 2_simulate_all.py:31-33 | charging the policy's action at its table cost keeps every step faithful to the policy |
| Simulation.LinkedAppend | 2_simulate_all.py:35-38 | appending the step at the sampled state keeps the steps linked by the sampler |
| Simulation.StepCosts | 2_simulate_all.py:32-33 | one cost per step of the trace, the step's own, in order |
| Simulation.TraceCostAppend | 2_simulate_all.py:33 | `total_cost += cost` adds the step's cost to the sum |
| Simulation.TerminalChargedOnce | 2_simulate_all.py:31-36 | a terminal state is charged at most once, as the last step, and the run ends there; a run cut by the cap has charged no terminal state |
| Simulation.IterateCostNonNegative | 2_simulate_all.py:28-33 | with non-negative costs in the table, `total_cost` is non-negative |
| Simulation.RunDrawsForward | 2_simulate_all.py:30-38 | a run uses at most `max_steps` draws and never goes back in the stream |
| Simulation.SimulateRecords | 2_simulate_all.py:26-44 | a batch of n runs has n records numbered 0 to n-1 in order, each the final state and cost of a run from the initial state |
| Simulation.IterateSettled | 2_simulate_all.py:30-36 | after a `break` or an exception, the remaining iterations change nothing |
| Simulation.IterateSucceeds | 2_simulate_all.py:28-38 | inside a set of states holding the initial state, where each state has a cost for its action and each non-terminal state a usable transition row leading back into the set, a run never raises and stays in the set, whatever the draws |
| Simulation.SimulateSucceeds | 2_simulate_all.py:24-44 | under the same condition a whole batch of runs never raises |
| Simulation.SimulateErrPersists | 2_simulate_all.py:26-44 | an exception in one run ends the whole batch |
| Driver.Costs | 2_simulate_all.py:59 | the run costs of a batch, in run order |
| Driver.AverageCost | 2_simulate_all.py:59 | the average times `NUM_RUNS` is the sum of the run costs; it is non-negative when every run cost is |
| Seqs.SumNonNegative | 2_simulate_all.py:59 | a sum of non-negative costs (run costs here, step costs in a trace) is non-negative |
| Driver.ScriptSummaries | 2_simulate_all.py:8-9 | with `NUM_RUNS` runs of at most `MAX_STEPS` steps, row i, when produced, has `policy_id` i and carries policy i and its intervention cost |
| Driver.SimulateAll | 2_simulate_all.py:48-65 | the loop over the policy list equals the specification `Summaries`: one row per policy, appended in order, with the draw stream shared |
| Driver.Summaries | 2_simulate_all.py:48-65 | the summary rows of the first n policies; stated by SummaryRowsMatchPolicies, LastRowIsBatchAverage and SummariesErrPersists |
| Driver.SummariesErrPersists | 2_simulate_all.py:49-54 | a failed policy ends the script |
| Driver.SummaryRowsMatchPolicies | 2_simulate_all.py:49-65 | row i has `policy_id` i, carries policy i and its intervention cost, and its `avg_total_cost` is the average of a batch of that policy's runs |
| Driver.LastRowIsBatchAverage | 2_simulate_all.py:49-65 | the row appended for policy n-1 is that policy's, with a batch average |
| Driver.SumBounds | 2_simulate_all.py:59 | a sum of n values in [lo, hi] lies in [n*lo, n*hi] |
| Driver.AverageCostBounds | 2_simulate_all.py:59 | the average over a batch of `NUM_RUNS` runs lies between the cheapest and dearest run |
| Driver.InterveneStatesOf | 2_simulate_all.py:73 | the intervention list is no longer than the key list |
| Driver.InterveneStatesOfExact | 2_simulate_all.py:73 | a state is listed if and only if it is a key mapped to `intervene`; listed in key order, each once |
| Driver.InterveneStatesExact | 2_simulate_all.py:73 | `intervene_states` of a policy lists exactly its keys whose value is `intervene`, in key order, without repeats |
| Driver.Metadata | 2_simulate_all.py:70-78 | one metadata entry per summary row, in order, with its id, intervention states, average and intervention cost, and no VoI yet |
| Voi.BaselineIndex | 3_add_voi_to_metadata.py:17 | the position of the first zero-cost row: every earlier row has non-zero cost |
| Voi.BaselineCost | 3_add_voi_to_metadata.py:17 | fails (IndexError) exactly when no row has intervention cost 0; otherwise it is the average cost of the first zero-cost row, every earlier row having a non-zero cost |
| Voi.VoI | 3_add_voi_to_metadata.py:21 | VoI plus the policy's average cost is the baseline; it is not clamped |
| Voi.VoIPerCost | 3_add_voi_to_metadata.py:22 | times a positive intervention cost it gives back VoI; exactly 0 when the cost is not positive |
| Voi.BaselineHasNoValue | 3_add_voi_to_metadata.py:17-22 | an entry whose average equals the baseline gets VoI 0 and VoI per cost 0 |
| Voi.WithVoI | 3_add_voi_to_metadata.py:21-22 | an entry gains exactly the two fields `VoI` and `VoI_per_cost`; its other fields are untouched |
| Voi.MetadataWithVoI | 3_add_voi_to_metadata.py:20-22 | the updated list has the same entries in the same order, each with its VoI |
| Voi.AddVoI | 3_add_voi_to_metadata.py:20-22 | the in-place loop leaves exactly the updated list in the array |
| Voi.AddVoIToMetadata | 3_add_voi_to_metadata.py:17-22 | the baseline is found first; without one the metadata is untouched and the error returned; otherwise every entry is updated (the same steps as 5_analysis_extended.py:24-28) |
| Sorting.Insert | 4_analysis_all.py:18 | inserting a row adds one row |
| Sorting.SortBy | 4_analysis_all.py:18 | sorting keeps the number of rows |
| Sorting.InsertPermutes | 4_analysis_all.py:18 | inserting adds exactly that row to the multiset |
| Sorting.InsertSorted | 4_analysis_all.py:18 | inserting into a sorted list keeps it sorted |
| Sorting.SortByCorrect | 4_analysis_all.py:18 | `sort_values` is ascending in its key and a permutation of the rows |
| Sorting.Head | 4_analysis_all.py:38 | `head(n)` has min(n, len) rows, a prefix |
| Sorting.HeadOfSorted | 4_analysis_all.py:38 | the head of a sorted list is sorted, each kept row's key is at most each dropped row's, and its rows are rows of the list |
| AnalysisAll.SortedByCost | 4_analysis_all.py:18 | `df_sorted` is in ascending order of average cost and holds the summary rows, each as often as before |
| AnalysisAll.Top5 | 4_analysis_all.py:38 | `top5` has min(5, n) rows, all summary rows, ascending in average cost |
| AnalysisAll.Top5Cheapest | 4_analysis_all.py:38 | `top5` has min(5, n) rows, is the prefix of the cost-sorted summary, holds summary rows, ascending, none costlier than a row left out |
| AnalysisAll.Score | 4_analysis_all.py:46-50 | each row gets `VoI = baseline - avg_total_cost` and `VoI_per_cost` by the positive-cost rule, the rows kept in place |
| AnalysisAll.ScoredSummary | 4_analysis_all.py:44-50 | a failure is the IndexError of a missing zero-cost row; a success has one scored row per summary row |
| AnalysisAll.ScoredSummaryFails | 4_analysis_all.py:44-45 | the VoI columns fail (IndexError) exactly when no summary row has intervention cost 0 |
| AnalysisAll.RowsOf | 4_analysis_all.py:44-46 | the summary rows under the scored rows, in order |
| AnalysisAll.SortedBaselineIsZeroCostRow | 4_analysis_all.py:44-45 | the baseline, the first zero-cost row of the cost-sorted summary, is the average cost of a zero-cost summary row and the lowest among the zero-cost rows |
| AnalysisAll.ScoredSummaryCorrect | 4_analysis_all.py:44-50 | `df_sorted` is a permutation of the summary, ascending in average cost, and every row's VoI is measured from the cheapest zero-cost row's average |
| AnalysisAll.ScoredVoIDescending | 4_analysis_all.py:44-46 | in `df_sorted` the VoI column never increases, and a zero-cost row has VoI 0 |
| AnalysisAll.TopByVoIPerCost | 4_analysis_all.py:51 | the top 10 has min(10, n) rows, all scored rows |
| AnalysisAll.TopByVoIPerCostBest | 4_analysis_all.py:51 | the top 10 by VoI per cost has min(10, n) rows in descending order, and no row left out has a larger VoI per cost |
| AnalysisAll.MatrixRowOf | 4_analysis_all.py:66-67 | each cell is the policy's VoI for a state it intervenes in, else 0; a KeyError exactly when the entry has no VoI and some listed state needs it |
| AnalysisAll.VoIMatrix | 4_analysis_all.py:65-69 | a matrix has one row per entry, with its policy id and one cell per listed state; a failure is the KeyError of an entry without a VoI |
| AnalysisAll.VoIHeatmap | 4_analysis_all.py:64-69 | over `state_list`, S0 to S5, every row has six cells |
| AnalysisAll.VoIMatrixRows | 4_analysis_all.py:65-69 | one matrix row per metadata entry, in order; fails exactly when some entry's row fails |
| AnalysisAll.VoIMatrixAfterVoI | 4_analysis_all.py:65-69 | after the VoI update every entry has a VoI, so the matrix never fails |
| AnalysisExtended.ColumnsToKeep | 5_analysis_extended.py:41-45 | `success_rate` is kept exactly when the summary has it, and then at position 3 with the other columns in order |
| AnalysisExtended.InterveneLists | 5_analysis_extended.py:55 | the `intervene_states` column, one list per row in order |
| AnalysisExtended.CountAll | 5_analysis_extended.py:56 | the `Counter` is a well-formed ordered dict |
| AnalysisExtended.CountAllCounts | 5_analysis_extended.py:55-56 | a state is counted if and only if it occurs, and its count is its number of occurrences |
| AnalysisExtended.CountAllTotal | 5_analysis_extended.py:55-56 | the counts add up to the number of states listed |
| AnalysisExtended.CountsTotalOneMore | 5_analysis_extended.py:56 | counting one more occurrence, of a present or a new key, adds one to the total |
| AnalysisExtended.CountOneMore | 5_analysis_extended.py:56 | counting one more occurrence adds one to the total |
| AnalysisExtended.CountsTotalBump | 5_analysis_extended.py:56 | raising one present key's count by one raises the total by one |
| AnalysisExtended.CountsTotalFrame | 5_analysis_extended.py:56 | a key not listed does not affect the total |
| AnalysisExtended.LiteralEvalColumn | 5_analysis_extended.py:52 | as written, re-parsing a column of lists fails with ValueError exactly when the column has a row |
| AnalysisExtended.StateCountsAsWritten | 5_analysis_extended.py:52-56 | as written, the counts fail with ValueError exactly when the table has a row, and agree with the intended counts otherwise |
| AnalysisExtended.StateCountsAsWrittenExample | 5_analysis_extended.py:52-56 | one policy intervening in S1 makes the script raise where the intended count of S1 is 1 |
| AnalysisExtended.StateCounts | 5_analysis_extended.py:55-56 | the counter is a well-formed ordered dict whose keys are exactly the states some policy intervenes in |
| AnalysisExtended.Flatten | 5_analysis_extended.py:55 | `all_states`, the lists joined in row order; stated by FlattenContains and FlattenAppend |
| AnalysisExtended.FlattenContains | 5_analysis_extended.py:55 | a state is in `all_states` exactly when it is in one policy's list |
| AnalysisExtended.StateCountsCorrect | 5_analysis_extended.py:55-56 | `state_counts[s]` is the number of occurrences of s across all `intervene_states` lists, and the counts sum to their total length |
| AnalysisExtended.Entries | 5_analysis_extended.py:70 | the metadata part of each rated row, in order |
| AnalysisExtended.HighSuccess | 5_analysis_extended.py:69 | every kept row has success rate at least 0.95, and no more rows are kept than the table has |
| AnalysisExtended.HighSuccessCounts | 5_analysis_extended.py:69 | each row rated at least 0.95 is kept as many times as the table holds it; no other row is kept |
| AnalysisExtended.HighSuccessExact | 5_analysis_extended.py:69 | the high-success subset is exactly the rows with success rate at least 0.95, in their original order |
| AnalysisExtended.FlattenAppend | 5_analysis_extended.py:70 | one more row adds its intervention states at the end of the flattened list |
| AnalysisExtended.HighSuccessStatesIncluded | 5_analysis_extended.py:69-70 | the high-success intervention states are, with multiplicity, among all rows' |
| AnalysisExtended.HighSuccessCountsBounded | 5_analysis_extended.py:69-71 | every state's high-success count is at most its overall count |

## Left out

- File and JSON/CSV I/O (`json.load`/`json.dump`, `pd.read_csv`, `to_csv`) and `log_run_result` (src/utils.py:15-17). The MDP, the policy list, the summary and the metadata are parameters, and the per-policy result files are not written.
- `load_mdp`: src/mdp.py is not part of this model. The MDP is a `Model` value, and its transition rows are ordered dicts.
- The probability law of `random.choices` and every statistical claim (Monte Carlo convergence, goodness of fit). The random generator is the stream `rng`, and the model proves only how one draw selects a key.
- Utils.PickIndex: a left-to-right scan in place of CPython's `bisect` over the running sums. The two agree for non-negative weights. With negative weights, `bisect` on a non-monotone list may pick a different key, which is not modelled.
- Simulation.RunSimulation: takes the policy dict rather than an arbitrary `policy_fn`, because both callers pass `lambda s: get_action_from_policy(s, policy)`.
- Printing, plotting (matplotlib, seaborn) and the sklearn clustering (5_analysis_extended.py:83-88), which are foreign numerics.
- The `success_rate` heat map and scatter plot (5_analysis_extended.py:99-123).
- `analysis.py` and `src/config.py`: plots and constants only. The run count and step cap are parameters, and `NUM_RUNS` (10000) stays the divisor of the average.
- Floating point: costs, VoI and the 1.5 budget are exact reals, so IEEE rounding in sums compared against the budget is not captured.
- `pd.merge` (5_analysis_extended.py:38): the high-success filter works on rows that already carry a success rate (`RatedEntry`). `2_simulate_all.py` never produces that column.
- Sorting.SortBy: a stable insertion sort. pandas' default quicksort does not promise an order among rows with equal keys, so the model fixes one order there; the sortedness and permutation facts hold for any order.
- AnalysisAll.ScoredSummary: when several rows cost 0, the baseline is the first of them in sorted order, the cheapest, as in the script. This can differ from the row `3_add_voi_to_metadata.py` picks in policy order, and the model does not relate the two.
- AnalysisExtended.StateCounts and AnalysisExtended.HighSuccess model what lines 55-71 of `5_analysis_extended.py` evidently intend. As written, the script raises at line 52 before reaching them whenever the merged table has a row (see "## Findings").
- The sort by `intervene_states` at 4_analysis_all.py:61 is printing only.

## Findings

| source | as written | input that shows it | evidently intended | confidence | as-written member | corrected member |
|---|---|---|---|---|---|---|
| 5_analysis_extended.py:52 | `df_merged["intervene_states"].apply(ast.literal_eval)` re-parses a column that already holds lists. `json.load` (line 22) made them lists, and the DataFrame, the merge and the column selection (lines 30-47) keep them. `ast.literal_eval` raises ValueError on a list, so the counts of lines 55-56 and 69-71 are never computed | one metadata entry with `policy_id` 0 and `intervene_states` `["S1"]`, and a summary row with `policy_id` 0 | count the states of the lists as loaded, giving `{"S1": 1}` | not executed | AnalysisExtended.StateCountsAsWritten | AnalysisExtended.StateCounts |

=== FILE: analysis_all.dfy ===
/**
 * The tables of 4_analysis_all.py: the summary sorted by average cost and
 * its five cheapest policies, the same sorted summary with VoI columns and
 * its ten best policies by VoI per cost, and the VoI-per-state matrix of the
 * metadata.
 */
module AnalysisAll {
  import opened Mdp
  import opened Sorting
  import opened Driver
  import opened Voi

  /** A row of `df_sorted` once the `VoI` and `VoI_per_cost` columns are assigned. */
  datatype ScoredRow = ScoredRow(row: SummaryRow, voi: real, voiPerCost: real)

  function AvgCostKey(r: SummaryRow): real
  {
    r.avgTotalCost
  }

  /** Sorting by this key puts the largest VoI per cost first (`ascending=False`). */
  function DescendingVoIPerCost(r: ScoredRow): real
  {
    -r.voiPerCost
  }

  /** `df.sort_values("avg_total_cost")`. */
  function SortedByCost(rows: seq<SummaryRow>): (sorted: seq<SummaryRow>)
    ensures SortedBy(sorted, AvgCostKey)
    ensures multiset(sorted) == multiset(rows)
  {
    SortByCorrect(rows, AvgCostKey);
    SortBy(rows, AvgCostKey)
  }

  /** `top5 = df_sorted.head(5)`. */
  function Top5(rows: seq<SummaryRow>): (top: seq<SummaryRow>)
    ensures |top| == if |rows| < 5 then |rows| else 5
    ensures multiset(top) <= multiset(rows)
    ensures SortedBy(top, AvgCostKey)
  {
    SortByCorrect(rows, AvgCostKey);
    HeadOfSorted(SortedByCost(rows), AvgCostKey, 5);
    Head(SortedByCost(rows), 5)
  }

  /**
   * The five rows of `top5` (fewer if the summary is shorter) are rows of
   * the summary with the lowest average costs, cheapest first.
   */
  lemma Top5Cheapest(rows: seq<SummaryRow>)
    ensures var sorted := SortedByCost(rows);
            var top := Top5(rows);
            && |top| == (if |rows| < 5 then |rows| else 5)
            && top == sorted[..|top|]
            && multiset(top) <= multiset(rows)
            && (forall i, j :: 0 <= i < j < |top| ==> top[i].avgTotalCost <= top[j].avgTotalCost)
            && (forall i, j :: 0 <= i < |top| <= j < |sorted| ==> sorted[i].avgTotalCost <= sorted[j].avgTotalCost)
  {
    SortByCorrect(rows, AvgCostKey);
    HeadOfSorted(SortedByCost(rows), AvgCostKey, 5);
  }

  /** The VoI columns of lines 46-50 over rows already in their final order. */
  function Score(rows: seq<SummaryRow>, baseline: real): (r: seq<ScoredRow>)
    ensures |r| == |rows|
    ensures forall i :: 0 <= i < |rows| ==>
              r[i] == ScoredRow(rows[i], VoI(baseline, rows[i].avgTotalCost), VoIPerCost(VoI(baseline, rows[i].avgTotalCost), rows[i].interventionCost))
  {
    seq(|rows|, i requires 0 <= i < |rows| =>
      var v := VoI(baseline, rows[i].avgTotalCost);
      ScoredRow(rows[i], v, VoIPerCost(v, rows[i].interventionCost)))
  }

  /**
   * `df_sorted` with its VoI columns: sort by average cost, take the baseline
   * from the first zero-cost row in that order, then score every row.
   */
  function ScoredSummary(rows: seq<SummaryRow>): (r: Result<seq<ScoredRow>>)
    ensures r.Err? ==> r.error == NoBaselineRow
    ensures r.Ok? ==> |r.value| == |rows|
  {
    var sorted := SortedByCost(rows);
    match BaselineCost(sorted)
    case Err(e) => Err(e)
    case Ok(baseline) => Ok(Score(sorted, baseline))
  }

  /** The scored summary exists exactly when some summary row has intervention cost 0. */
  lemma ScoredSummaryFails(rows: seq<SummaryRow>)
    ensures ScoredSummary(rows).Err? <==> forall i :: 0 <= i < |rows| ==> rows[i].interventionCost != 0.0
  {
    var sorted := SortedByCost(rows);
    SortByCorrect(rows, AvgCostKey);
    if ScoredSummary(rows).Err? {
      forall i | 0 <= i < |rows|
        ensures rows[i].interventionCost != 0.0
      {
        assert rows[i] in multiset(sorted);
      }
    } else {
      var k :| 0 <= k < |sorted| && sorted[k].interventionCost == 0.0;
      assert sorted[k] in multiset(rows);
    }
  }

  /** The summary rows underneath the scored rows. */
  function RowsOf(scored: seq<ScoredRow>): (r: seq<SummaryRow>)
    ensures |r| == |scored|
    ensures forall i :: 0 <= i < |scored| ==> r[i] == scored[i].row
  {
    seq(|scored|, i requires 0 <= i < |scored| => scored[i].row)
  }

  /**
   * The baseline, taken from the first zero-cost row once the summary is
   * sorted by average cost, is the average cost of a zero-cost summary row
   * and the lowest average cost among the zero-cost rows.
   */
  lemma SortedBaselineIsZeroCostRow(rows: seq<SummaryRow>)
    requires BaselineCost(SortedByCost(rows)).Ok?
    ensures exists b :: 0 <= b < |rows| && rows[b].interventionCost == 0.0 &&
              BaselineCost(SortedByCost(rows)).value == rows[b].avgTotalCost
    ensures forall j :: 0 <= j < |rows| && rows[j].interventionCost == 0.0 ==>
              BaselineCost(SortedByCost(rows)).value <= rows[j].avgTotalCost
  {
    var sorted := SortedByCost(rows);
    var baseline := BaselineCost(sorted).value;
    SortByCorrect(rows, AvgCostKey);
    var k := BaselineIndex(sorted);
    assert sorted[k] in multiset(rows);
    var b :| 0 <= b < |rows| && rows[b] == sorted[k];
    forall j | 0 <= j < |rows| && rows[j].interventionCost == 0.0
      ensures baseline <= rows[j].avgTotalCost
    {
      assert rows[j] in multiset(sorted);
      var m :| 0 <= m < |sorted| && sorted[m] == rows[j];
      assert k <= m;
      assert k == m || AvgCostKey(sorted[k]) <= AvgCostKey(sorted[m]);
    }
  }

  /**
   * The scored summary holds every summary row once, cheapest first, each
   * with its VoI measured from the lowest average cost of a zero-cost row.
   */
  lemma ScoredSummaryCorrect(rows: seq<SummaryRow>)
    requires ScoredSummary(rows).Ok?
    ensures var scored := ScoredSummary(rows).value;
            && multiset(RowsOf(scored)) == multiset(rows)
            && SortedBy(RowsOf(scored), AvgCostKey)
            && exists b :: && 0 <= b < |rows| && rows[b].interventionCost == 0.0
                           && (forall j :: 0 <= j < |rows| && rows[j].interventionCost == 0.0 ==> rows[b].avgTotalCost <= rows[j].avgTotalCost)
                           && forall i :: 0 <= i < |scored| ==> scored[i].voi == rows[b].avgTotalCost - scored[i].row.avgTotalCost
  {
    var sorted := SortedByCost(rows);
    var baseline := BaselineCost(sorted).value;
    var scored := Score(sorted, baseline);
    assert ScoredSummary(rows) == Ok(scored);
    SortByCorrect(rows, AvgCostKey);
    assert RowsOf(scored) == sorted;
    SortedBaselineIsZeroCostRow(rows);
    var b :| 0 <= b < |rows| && rows[b].interventionCost == 0.0 && baseline == rows[b].avgTotalCost;
  }

  /**
   * In `df_sorted` the VoI column never increases: sorting by average cost
   * ascending is sorting by VoI descending, and the baseline row has VoI 0.
   */
  lemma ScoredVoIDescending(rows: seq<SummaryRow>)
    requires ScoredSummary(rows).Ok?
    ensures var scored := ScoredSummary(rows).value;
            forall i, j :: 0 <= i < j < |scored| ==> scored[i].voi >= scored[j].voi
    ensures var scored := ScoredSummary(rows).value;
            exists k :: 0 <= k < |scored| && scored[k].row.interventionCost == 0.0 && scored[k].voi == 0.0
  {
    var sorted := SortedByCost(rows);
    var baseline := BaselineCost(sorted).value;
    var scored := ScoredSummary(rows).value;
    assert scored == Score(sorted, baseline);
    SortByCorrect(rows, AvgCostKey);
    forall i, j | 0 <= i < j < |scored|
      ensures scored[i].voi >= scored[j].voi
    {
      assert AvgCostKey(sorted[i]) <= AvgCostKey(sorted[j]);
    }
    var k := BaselineIndex(sorted);
    assert scored[k].voi == 0.0;
  }

  /** `df_sorted.sort_values("VoI_per_cost", ascending=False).head(10)`. */
  function TopByVoIPerCost(scored: seq<ScoredRow>): (top: seq<ScoredRow>)
    ensures |top| == if |scored| < 10 then |scored| else 10
    ensures multiset(top) <= multiset(scored)
  {
    SortByCorrect(scored, DescendingVoIPerCost);
    HeadOfSorted(SortBy(scored, DescendingVoIPerCost), DescendingVoIPerCost, 10);
    Head(SortBy(scored, DescendingVoIPerCost), 10)
  }

  /**
   * The ten rows kept (fewer if there are fewer rows) have the largest VoI
   * per cost: they come in descending order, and none of the rows left out
   * has a larger VoI per cost than any of them.
   */
  lemma TopByVoIPerCostBest(scored: seq<ScoredRow>)
    ensures var ranked := SortBy(scored, DescendingVoIPerCost);
            var top := TopByVoIPerCost(scored);
            && multiset(ranked) == multiset(scored)
            && |top| == (if |scored| < 10 then |scored| else 10)
            && top == ranked[..|top|]
            && (forall i, j :: 0 <= i < j < |top| ==> top[i].voiPerCost >= top[j].voiPerCost)
            && (forall i, j :: 0 <= i < |top| <= j < |ranked| ==> ranked[i].voiPerCost >= ranked[j].voiPerCost)
  {
    var ranked := SortBy(scored, DescendingVoIPerCost);
    SortByCorrect(scored, DescendingVoIPerCost);
    HeadOfSorted(ranked, DescendingVoIPerCost, 10);
    var top := TopByVoIPerCost(scored);
    forall i, j | 0 <= i < j < |top|
      ensures top[i].voiPerCost >= top[j].voiPerCost
    {
      assert DescendingVoIPerCost(top[i]) <= DescendingVoIPerCost(top[j]);
    }
    forall i, j | 0 <= i < |top| <= j < |ranked|
      ensures ranked[i].voiPerCost >= ranked[j].voiPerCost
    {
      assert DescendingVoIPerCost(ranked[i]) <= DescendingVoIPerCost(ranked[j]);
    }
  }

  // ----- the VoI matrix -----

  /** `state_list` of line 64. */
  const StateList: seq<State> := ["S0", "S1", "S2", "S3", "S4", "S5"]

  /** One row of `voi_matrix`: a policy id and one cell per listed state. */
  datatype MatrixRow = MatrixRow(policyId: nat, cells: seq<real>)

  /** `p['VoI']` is read only for a listed state the policy intervenes in. */
  predicate NeedsVoI(e: MetaEntry, states: seq<State>)
  {
    exists s :: s in states && s in e.interveneStates
  }

  /**
   * `{s: p['VoI'] if s in p['intervene_states'] else 0 for s in state_list}`:
   * the policy's VoI in the columns of the states it intervenes in, 0 in the
   * others; a missing VoI raises a KeyError once a column needs it.
   */
  function MatrixRowOf(e: MetaEntry, states: seq<State>): (r: Result<MatrixRow>)
    ensures r.Err? <==> e.voi.None? && NeedsVoI(e, states)
    ensures r.Err? ==> r.error == MissingVoI(e.policyId)
    ensures r.Ok? ==>
              && r.value.policyId == e.policyId
              && |r.value.cells| == |states|
              && forall j :: 0 <= j < |states| ==>
                   r.value.cells[j] == if states[j] in e.interveneStates then e.voi.value else 0.0
  {
    if e.voi.None? && NeedsVoI(e, states) then Err(MissingVoI(e.policyId))
    else
      Ok(MatrixRow(e.policyId, seq(|states|, j requires 0 <= j < |states| =>
        if states[j] in e.interveneStates then e.voi.value else 0.0)))
  }

  /** The rows of `voi_matrix`, one per metadata entry in order; the first failing entry fails it all. */
  function VoIMatrix(metadata: seq<MetaEntry>, states: seq<State>): (r: Result<seq<MatrixRow>>)
    ensures r.Ok? ==> |r.value| == |metadata|
    ensures r.Ok? ==> forall i :: 0 <= i < |r.value| ==> r.value[i].policyId == metadata[i].policyId && |r.value[i].cells| == |states|
    ensures r.Err? ==> exists i :: 0 <= i < |metadata| && r.error == MissingVoI(metadata[i].policyId) && metadata[i].voi.None?
  {
    if metadata == [] then Ok([])
    else
      match MatrixRowOf(metadata[0], states)
      case Err(e) => Err(e)
      case Ok(row) =>
        match VoIMatrix(metadata[1..], states)
        case Err(e) => Err(e)
        case Ok(rows) => Ok([row] + rows)
  }

  /**
   * The matrix has one row per metadata entry, each the entry's own row;
   * it fails exactly when some entry lacks a VoI that one of its cells needs.
   */
  lemma {:induction false} VoIMatrixRows(metadata: seq<MetaEntry>, states: seq<State>)
    ensures VoIMatrix(metadata, states).Err? <==> exists i :: 0 <= i < |metadata| && MatrixRowOf(metadata[i], states).Err?
    ensures VoIMatrix(metadata, states).Ok? ==>
              var rows := VoIMatrix(metadata, states).value;
              && |rows| == |metadata|
              && forall i :: 0 <= i < |metadata| ==> MatrixRowOf(metadata[i], states) == Ok(rows[i])
  {
    if metadata != [] {
      VoIMatrixRows(metadata[1..], states);
      if MatrixRowOf(metadata[0], states).Ok? && VoIMatrix(metadata[1..], states).Ok? {
        var rows := VoIMatrix(metadata, states).value;
        forall i | 0 <= i < |metadata|
          ensures MatrixRowOf(metadata[i], states) == Ok(rows[i])
        {
          if i > 0 {
            assert metadata[i] == metadata[1..][i - 1];
          }
        }
      } else if VoIMatrix(metadata[1..], states).Err? {
        var i :| 0 <= i < |metadata[1..]| && MatrixRowOf(metadata[1..][i], states).Err?;
        assert MatrixRowOf(metadata[i + 1], states).Err?;
      }
      if exists i :: 0 <= i < |metadata| && MatrixRowOf(metadata[i], states).Err? {
        var i :| 0 <= i < |metadata| && MatrixRowOf(metadata[i], states).Err?;
        if i > 0 {
          assert metadata[i] == metadata[1..][i - 1];
        }
      }
    }
  }

  /**
   * The heat map of 4_analysis_all.py: the matrix over its `state_list`,
   * S0 to S5, so six cells per policy.
   */
  function VoIHeatmap(metadata: seq<MetaEntry>): (r: Result<seq<MatrixRow>>)
    ensures r.Ok? ==> |r.value| == |metadata| && forall i :: 0 <= i < |r.value| ==> |r.value[i].cells| == 6
  {
    VoIMatrix(metadata, StateList)
  }

  /** Once every entry has its VoI, as after 3_add_voi_to_metadata.py, the matrix never fails. */
  lemma VoIMatrixAfterVoI(metadata: seq<MetaEntry>, baseline: real, states: seq<State>)
    ensures VoIMatrix(MetadataWithVoI(metadata, baseline), states).Ok?
  {
    VoIMatrixRows(MetadataWithVoI(metadata, baseline), states);
  }
}

=== FILE: analysis_extended.dfy ===
/**
 * The tables of 5_analysis_extended.py that are not plots: the columns kept
 * in the extended summary, how often each state is intervened in across the
 * policies, and the same count over the policies whose success rate is at
 * least 95%. Its VoI loop is the one of 3_add_voi_to_metadata.py (module Voi).
 */
module AnalysisExtended {
  import opened Seqs
  import opened Dicts
  import opened Mdp
  import opened Driver

  /** `columns_to_keep` before the optional insertion. */
  const BaseColumns: seq<string> :=
    ["policy_id", "avg_total_cost", "intervention_cost", "policy", "intervene_states", "VoI", "VoI_per_cost"]

  const SuccessRateColumn: string := "success_rate"

  /** `columns_to_keep`, with `success_rate` inserted at position 3 when the summary has that column. */
  function ColumnsToKeep(hasSuccessRate: bool): (cols: seq<string>)
    ensures SuccessRateColumn in cols <==> hasSuccessRate
    ensures hasSuccessRate ==> |cols| == 8 && cols[3] == SuccessRateColumn && cols[..3] + cols[4..] == BaseColumns
    ensures !hasSuccessRate ==> cols == BaseColumns
  {
    if hasSuccessRate then BaseColumns[..3] + [SuccessRateColumn] + BaseColumns[3..] else BaseColumns
  }

  // ----- intervention frequency -----

  /** `[s for states in lists for s in states]`. */
  function Flatten(lists: seq<seq<State>>): seq<State>
  {
    if lists == [] then [] else Flatten(lists[..|lists| - 1]) + lists[|lists| - 1]
  }

  /** The `intervene_states` column of the metadata, in row order. */
  function InterveneLists(metadata: seq<MetaEntry>): (r: seq<seq<State>>)
    ensures |r| == |metadata|
    ensures forall i :: 0 <= i < |metadata| ==> r[i] == metadata[i].interveneStates
  {
    seq(|metadata|, i requires 0 <= i < |metadata| => metadata[i].interveneStates)
  }

  /** `Counter(xs)`: each state in order of first occurrence, with its number of occurrences so far. */
  function CountAll(xs: seq<State>): (c: Dict<nat>)
    ensures Valid(c)
  {
    if xs == [] then Empty()
    else
      Bump(CountAll(xs[..|xs| - 1]), xs[|xs| - 1])
  }

  /** `counter[x] += 1`. */
  function Bump(c: Dict<nat>, x: State): (r: Dict<nat>)
    requires Valid(c)
    ensures Valid(r)
    ensures r.entries == c.entries[x := GetOr(c, x, 0) + 1]
    ensures r.keys == if x in c.entries then c.keys else c.keys + [x]
  {
    Put(c, x, GetOr(c, x, 0) + 1)
  }

  /**
   * `state_counts = Counter(all_states)` over the metadata: its keys are
   * exactly the states some policy intervenes in, each listed once.
   */
  function StateCounts(metadata: seq<MetaEntry>): (c: Dict<nat>)
    ensures Valid(c)
    ensures forall s :: s in c.entries <==> exists i :: 0 <= i < |metadata| && s in metadata[i].interveneStates
  {
    CountAllCounts(Flatten(InterveneLists(metadata)));
    FlattenContains(InterveneLists(metadata));
    CountAll(Flatten(InterveneLists(metadata)))
  }

  /** A state occurs in the flattened lists exactly when it occurs in one of them. */
  lemma {:induction false} FlattenContains(lists: seq<seq<State>>)
    ensures forall s :: s in Flatten(lists) <==> exists i :: 0 <= i < |lists| && s in lists[i]
  {
    if lists != [] {
      var init := lists[..|lists| - 1];
      var last := lists[|lists| - 1];
      FlattenContains(init);
      assert Flatten(lists) == Flatten(init) + last;
      forall s
        ensures s in Flatten(lists) <==> exists i :: 0 <= i < |lists| && s in lists[i]
      {
        if s in last {
          assert s in lists[|lists| - 1];
        } else if s in Flatten(init) {
          var i :| 0 <= i < |init| && s in init[i];
          assert s in lists[i];
        } else {
          forall i | 0 <= i < |lists|
            ensures s !in lists[i]
          {
            if i < |init| {
              assert lists[i] == init[i];
            }
          }
        }
      }
    }
  }

  /**
   * `df_merged["intervene_states"].apply(ast.literal_eval)` as written. The
   * column holds the lists `json.load` produced, not their text, and
   * `ast.literal_eval` raises a ValueError on any value that is neither a
   * string nor a syntax tree, so the first row of a non-empty column fails.
   */
  function LiteralEvalColumn(column: seq<seq<State>>): (r: Result<seq<seq<State>>>)
    ensures r.Err? <==> |column| > 0
    ensures r.Err? ==> r.error == MalformedNode
    ensures r.Ok? ==> r.value == []
  {
    if column == [] then Ok(column) else Err(MalformedNode)
  }

  /**
   * Section 2-1 of 5_analysis_extended.py as written: re-parse the column,
   * then count. The counts are never produced for a table with a row; for an
   * empty table they are the empty counter, which is also what `StateCounts`
   * gives there.
   */
  function StateCountsAsWritten(metadata: seq<MetaEntry>): (r: Result<Dict<nat>>)
    ensures r.Err? <==> |metadata| > 0
    ensures r.Err? ==> r.error == MalformedNode
    ensures r.Ok? ==> r.value == StateCounts(metadata)
  {
    match LiteralEvalColumn(InterveneLists(metadata))
    case Err(e) => Err(e)
    case Ok(lists) => Ok(CountAll(Flatten(lists)))
  }

  /**
   * One policy intervening in S1 is enough: the script raises where the
   * intended count is `{S1: 1}`.
   */
  lemma StateCountsAsWrittenExample()
    ensures var metadata := [MetaEntry(0, ["S1"], 1.0, 0.5, None, None)];
            && StateCountsAsWritten(metadata) == Err(MalformedNode)
            && GetOr(StateCounts(metadata), "S1", 0) == 1
  {
    var metadata := [MetaEntry(0, ["S1"], 1.0, 0.5, None, None)];
    assert Flatten(InterveneLists(metadata)) == ["S1"] by {
      assert InterveneLists(metadata) == [["S1"]];
      assert InterveneLists(metadata)[..0] == [];
    }
    CountAllCounts(["S1"]);
    assert multiset(["S1"])["S1"] == 1;
  }

  /** The sum of the counts of the listed keys. */
  function CountsTotal<K>(keys: seq<K>, counts: map<K, nat>): nat
  {
    if keys == [] then 0
    else
      var k := keys[|keys| - 1];
      CountsTotal(keys[..|keys| - 1], counts) + (if k in counts then counts[k] else 0)
  }

  /**
   * The counter holds exactly the states that occur, each with its number
   * of occurrences (a state that does not occur counts 0).
   */
  lemma {:induction false} CountAllCounts(xs: seq<State>)
    ensures forall s :: s in CountAll(xs).entries <==> s in xs
    ensures forall s :: GetOr(CountAll(xs), s, 0) == multiset(xs)[s]
  {
    if xs != [] {
      var init := xs[..|xs| - 1];
      assert xs == init + [xs[|xs| - 1]];
      CountAllCounts(init);
    }
  }

  /** The counts add up to the number of occurrences counted. */
  lemma {:induction false} CountAllTotal(xs: seq<State>)
    ensures Total(CountAll(xs)) == |xs|
  {
    if xs != [] {
      var c := CountAll(xs[..|xs| - 1]);
      var x := xs[|xs| - 1];
      CountAllTotal(xs[..|xs| - 1]);
      CountOneMore(c, x);
    }
  }

  /** The sum of all the counts of a counter. */
  function Total(c: Dict<nat>): nat
  {
    CountsTotal(c.keys, c.entries)
  }

  /** Counting one more occurrence of x adds one to the total. */
  lemma CountOneMore(c: Dict<nat>, x: State)
    requires Valid(c)
    ensures Total(Bump(c, x)) == Total(c) + 1
  {
    CountsTotalOneMore(c.keys, c.entries, x);
  }

  lemma CountsTotalOneMore<K>(keys: seq<K>, counts: map<K, nat>, x: K)
    requires Distinct(keys) && forall k :: k in counts <==> k in keys
    ensures x in counts ==> CountsTotal(keys, counts[x := counts[x] + 1]) == CountsTotal(keys, counts) + 1
    ensures x !in counts ==> CountsTotal(keys + [x], counts[x := 1]) == CountsTotal(keys, counts) + 1
  {
    if x in counts {
      CountsTotalBump(keys, counts, x);
    } else {
      CountsTotalFrame(keys, counts, x, 1);
      assert (keys + [x])[..|keys|] == keys;
    }
  }

  lemma {:induction false} CountsTotalBump<K>(keys: seq<K>, counts: map<K, nat>, x: K)
    requires Distinct(keys) && x in keys && x in counts
    ensures CountsTotal(keys, counts[x := counts[x] + 1]) == CountsTotal(keys, counts) + 1
  {
    var init := keys[..|keys| - 1];
    var k := keys[|keys| - 1];
    if k == x {
      assert x !in init;
      CountsTotalFrame(init, counts, x, counts[x] + 1);
    } else {
      CountsTotalBump(init, counts, x);
    }
  }

  lemma {:induction false} CountsTotalFrame<K>(keys: seq<K>, counts: map<K, nat>, x: K, v: nat)
    requires x !in keys
    ensures CountsTotal(keys, counts[x := v]) == CountsTotal(keys, counts)
  {
    if keys != [] {
      CountsTotalFrame(keys[..|keys| - 1], counts, x, v);
    }
  }

  /**
   * `state_counts[s]` is the number of policies that intervene in s, counted
   * once per occurrence in their lists, and the counts add up to the total
   * length of the lists.
   */
  lemma StateCountsCorrect(metadata: seq<MetaEntry>)
    ensures forall s :: GetOr(StateCounts(metadata), s, 0) == multiset(Flatten(InterveneLists(metadata)))[s]
    ensures Total(StateCounts(metadata)) == |Flatten(InterveneLists(metadata))|
  {
    CountAllCounts(Flatten(InterveneLists(metadata)));
    CountAllTotal(Flatten(InterveneLists(metadata)));
  }

  // ----- high success -----

  /** A row of the merged table that carries a success rate. */
  datatype RatedEntry = RatedEntry(entry: MetaEntry, successRate: real)

  const HighSuccessRate: real := 0.95

  /** `df_merged[df_merged["success_rate"] >= 0.95]`. */
  function HighSuccess(rows: seq<RatedEntry>): (high: seq<RatedEntry>)
    ensures |high| <= |rows|
    ensures forall i :: 0 <= i < |high| ==> high[i].successRate >= HighSuccessRate
  {
    if rows == [] then []
    else
      var last := rows[|rows| - 1];
      HighSuccess(rows[..|rows| - 1]) + (if last.successRate >= HighSuccessRate then [last] else [])
  }

  function Entries(rows: seq<RatedEntry>): (r: seq<MetaEntry>)
    ensures |r| == |rows|
    ensures forall i :: 0 <= i < |rows| ==> r[i] == rows[i].entry
  {
    seq(|rows|, i requires 0 <= i < |rows| => rows[i].entry)
  }

  /** The high-success rows are exactly the rows rated at least 95%, in their original order. */
  lemma {:induction false} HighSuccessExact(rows: seq<RatedEntry>)
    ensures forall r :: r in HighSuccess(rows) <==> r in rows && r.successRate >= HighSuccessRate
    ensures IsSubsequence(HighSuccess(rows), rows)
  {
    if rows == [] {
    } else {
      var init := rows[..|rows| - 1];
      var last := rows[|rows| - 1];
      assert rows == init + [last];
      HighSuccessExact(init);
      SubsequenceAppend(HighSuccess(init), init, last, last.successRate >= HighSuccessRate);
    }
  }

  /** Each row rated at least 95% is kept as often as the table holds it; no other row is kept. */
  lemma {:induction false} HighSuccessCounts(rows: seq<RatedEntry>)
    ensures forall r :: multiset(HighSuccess(rows))[r] == if r.successRate >= HighSuccessRate then multiset(rows)[r] else 0
  {
    if rows != [] {
      var init := rows[..|rows| - 1];
      var last := rows[|rows| - 1];
      assert rows == init + [last];
      HighSuccessCounts(init);
    }
  }

  /** The intervention states of the high-success rows are among those of all rows. */
  lemma {:induction false} HighSuccessStatesIncluded(rows: seq<RatedEntry>)
    ensures multiset(Flatten(InterveneLists(Entries(HighSuccess(rows))))) <= multiset(Flatten(InterveneLists(Entries(rows))))
  {
    if rows != [] {
      var init := rows[..|rows| - 1];
      var last := rows[|rows| - 1];
      var kept := HighSuccess(init);
      HighSuccessStatesIncluded(init);
      FlattenAppend(init, last);
      assert rows == init + [last];
      if last.successRate >= HighSuccessRate {
        assert HighSuccess(rows) == kept + [last];
        FlattenAppend(kept, last);
      } else {
        assert HighSuccess(rows) == kept;
      }
    }
  }

  /** One more row adds its intervention states at the end of the flattened list. */
  lemma FlattenAppend(rows: seq<RatedEntry>, r: RatedEntry)
    ensures Flatten(InterveneLists(Entries(rows + [r]))) == Flatten(InterveneLists(Entries(rows))) + r.entry.interveneStates
  {
    var lists := InterveneLists(Entries(rows + [r]));
    assert lists[..|lists| - 1] == InterveneLists(Entries(rows));
  }

  /** Each state's high-success count is at most its count over all policies. */
  lemma HighSuccessCountsBounded(rows: seq<RatedEntry>)
    ensures forall s :: GetOr(StateCounts(Entries(HighSuccess(rows))), s, 0) <= GetOr(StateCounts(Entries(rows)), s, 0)
  {
    StateCountsCorrect(Entries(HighSuccess(rows)));
    StateCountsCorrect(Entries(rows));
    HighSuccessStatesIncluded(rows);
  }
}

=== FILE: dicts.dfy ===
/**
 * Python dictionaries with string keys. A Python dict remembers the order in
 * which its keys were first inserted, and that order is visible to the model
 * (a policy's `items()`, the keys of a transition row, a `Counter`), so a
 * dictionary is the list of its keys in insertion order together with the
 * key-to-value map.
 */
module Dicts {
  import opened Seqs

  datatype Dict<V> = Dict(keys: seq<string>, entries: map<string, V>)

  /** The key list holds each key of the map exactly once. */
  ghost predicate Valid<V>(d: Dict<V>)
  {
    Distinct(d.keys) && forall k :: k in d.entries <==> k in d.keys
  }

  /** The empty dictionary `{}`. */
  function Empty<V>(): (d: Dict<V>)
    ensures Valid(d) && d.keys == [] && d.entries == map[]
  {
    Dict([], map[])
  }

  /** `d[k] = v`: a new key goes to the end of the key order, an old key keeps its place. */
  function Put<V>(d: Dict<V>, k: string, v: V): (r: Dict<V>)
    requires Valid(d)
    ensures Valid(r)
    ensures r.entries == d.entries[k := v]
    ensures r.keys == if k in d.entries then d.keys else d.keys + [k]
  {
    Dict(if k in d.entries then d.keys else d.keys + [k], d.entries[k := v])
  }

  /** `d.get(k, default)`. */
  function GetOr<V>(d: Dict<V>, k: string, default: V): V
  {
    if k in d.entries then d.entries[k] else default
  }

  /**
   * The values in key order, `list(d.values())`; a key the map lacks (which
   * a valid dict never has) reads as `default`.
   */
  function Values<V>(d: Dict<V>, default: V): (vs: seq<V>)
    ensures |vs| == |d.keys|
  {
    ValuesOf(d.keys, d.entries, default)
  }

  /** The values of the listed keys, in the order of the list. */
  function ValuesOf<V>(keys: seq<string>, entries: map<string, V>, default: V): (vs: seq<V>)
    ensures |vs| == |keys|
  {
    if keys == [] then []
    else
      var k := keys[|keys| - 1];
      ValuesOf(keys[..|keys| - 1], entries, default) + [if k in entries then entries[k] else default]
  }

  /** Position i of the value list of a valid dict holds the value of its i-th key. */
  lemma ValuesAt<V>(d: Dict<V>, default: V, i: nat)
    requires Valid(d) && i < |d.keys|
    ensures d.keys[i] in d.entries && Values(d, default)[i] == d.entries[d.keys[i]]
  {
    ValuesOfAt(d.keys, d.entries, default, i);
  }

  lemma {:induction false} ValuesOfAt<V>(keys: seq<string>, entries: map<string, V>, default: V, i: nat)
    requires i < |keys|
    ensures ValuesOf(keys, entries, default)[i] == if keys[i] in entries then entries[keys[i]] else default
    decreases |keys|
  {
    if i < |keys| - 1 {
      ValuesOfAt(keys[..|keys| - 1], entries, default, i);
    }
  }
}

=== FILE: driver.dfy ===
/**
 * The driver of 2_simulate_all.py: simulate every policy of the policy list,
 * average the run costs into one summary row per policy, and derive the
 * metadata entries (policy id, the states where the policy intervenes, its
 * average cost and its intervention cost).
 */
module Driver {
  import opened Seqs
  import opened Dicts
  import opened Mdp
  import opened PolicyGeneration
  import opened Simulation

  /** NUM_RUNS, the divisor of the average, and `run_simulation`'s default run count. */
  const NumRuns: nat := 10000
  /** MAX_STEPS, `run_simulation`'s default step cap. */
  const MaxSteps: nat := 10

  /** One row of `summary_rows` (and of summary.csv). */
  datatype SummaryRow = SummaryRow(policyId: nat, avgTotalCost: real, interventionCost: real, policy: Policy)

  /** The summary rows so far, and the next unused draw. */
  datatype Summary = Summary(rows: seq<SummaryRow>, next: nat)

  /**
   * One entry of policy_metadata.json. `voi` and `voiPerCost` are the two
   * fields 3_add_voi_to_metadata.py adds later; they are absent here.
   */
  datatype MetaEntry = MetaEntry(
    policyId: nat,
    interveneStates: seq<State>,
    avgTotalCost: real,
    interventionCost: real,
    voi: Option<real>,
    voiPerCost: Option<real>)

  /** The run costs of a batch, in run order. */
  function Costs(records: seq<RunRecord>): (w: seq<real>)
    ensures |w| == |records|
    ensures forall i :: 0 <= i < |records| ==> w[i] == records[i].totalCost
  {
    seq(|records|, i requires 0 <= i < |records| => records[i].totalCost)
  }

  /** `sum(r['total_cost'] for r in sim_results) / NUM_RUNS`. */
  function AverageCost(records: seq<RunRecord>): (avg: real)
    ensures avg * (NumRuns as real) == Sum(Costs(records))
    ensures (forall i :: 0 <= i < |records| ==> records[i].totalCost >= 0.0) ==> avg >= 0.0
  {
    SumNonNegative(Costs(records));
    Sum(Costs(records)) / (NumRuns as real)
  }

  /**
   * The first n rows of `summary_rows`: one batch of `numRuns` runs of at
   * most `maxSteps` steps per policy, the draw stream shared. The script
   * passes `run_simulation`'s defaults, NUM_RUNS and MAX_STEPS, and divides
   * by NUM_RUNS.
   */
  function Summaries(m: Model, items: seq<PolicyItem>, n: nat, numRuns: nat, maxSteps: nat, rng: nat -> real, next0: nat): Result<Summary>
    requires n <= |items|
  {
    if n == 0 then Ok(Summary([], next0))
    else
      match Summaries(m, items, n - 1, numRuns, maxSteps, rng, next0)
      case Err(e) => Err(e)
      case Ok(t) =>
        var item := items[n - 1];
        match Simulate(m, item.policy, numRuns, maxSteps, rng, t.next)
        case Err(e) => Err(e)
        case Ok(b) =>
          Ok(Summary(t.rows + [SummaryRow(n - 1, AverageCost(b.records), item.totalInterventionCost, item.policy)], b.next))
  }

  /** The loop over `enumerate(policy_list)` that fills `summary_rows`. */
  method SimulateAll(m: Model, items: seq<PolicyItem>, numRuns: nat, maxSteps: nat, rng: nat -> real, next0: nat)
    returns (r: Result<Summary>)
    ensures r == Summaries(m, items, |items|, numRuns, maxSteps, rng, next0)
  {
    var rows: seq<SummaryRow> := [];
    var next := next0;
    for i := 0 to |items|
      invariant Summaries(m, items, i, numRuns, maxSteps, rng, next0) == Ok(Summary(rows, next))
    {
      var policy := items[i].policy;
      var batch := RunSimulation(m, policy, numRuns, maxSteps, rng, next);
      if batch.Err? {
        SummariesErrPersists(m, items, i + 1, |items|, numRuns, maxSteps, rng, next0);
        return Err(batch.error);
      }
      var avgCost := AverageCost(batch.value.records);
      rows := rows + [SummaryRow(i, avgCost, items[i].totalInterventionCost, policy)];
      next := batch.value.next;
    }
    r := Ok(Summary(rows, next));
  }

  /**
   * 2_simulate_all.py over a policy list as it runs: NUM_RUNS runs of at
   * most MAX_STEPS steps per policy, from the first draw of the stream.
   * Row i, when produced, is policy i's.
   */
  function ScriptSummaries(m: Model, items: seq<PolicyItem>, rng: nat -> real): (r: Result<Summary>)
    ensures r.Ok? ==>
              && |r.value.rows| == |items|
              && forall i :: 0 <= i < |items| ==>
                   && r.value.rows[i].policyId == i
                   && r.value.rows[i].policy == items[i].policy
                   && r.value.rows[i].interventionCost == items[i].totalInterventionCost
  {
    var r := Summaries(m, items, |items|, NumRuns, MaxSteps, rng, 0);
    if r.Ok? then
      SummaryRowsMatchPolicies(m, items, |items|, NumRuns, MaxSteps, rng, 0);
      r
    else r
  }

  /** Once a policy's simulation has failed, the script stops. */
  lemma {:induction false} SummariesErrPersists(m: Model, items: seq<PolicyItem>, n1: nat, n2: nat, numRuns: nat, maxSteps: nat, rng: nat -> real, next0: nat)
    requires n1 <= n2 <= |items|
    requires Summaries(m, items, n1, numRuns, maxSteps, rng, next0).Err?
    ensures Summaries(m, items, n2, numRuns, maxSteps, rng, next0) == Summaries(m, items, n1, numRuns, maxSteps, rng, next0)
    decreases n2
  {
    if n1 < n2 {
      SummariesErrPersists(m, items, n1, n2 - 1, numRuns, maxSteps, rng, next0);
    }
  }

  /** `avg` is the average cost of some batch of `numRuns` runs of `policy`. */
  ghost predicate IsBatchAverage(m: Model, policy: Policy, numRuns: nat, maxSteps: nat, rng: nat -> real, avg: real)
  {
    exists s {:trigger Simulate(m, policy, numRuns, maxSteps, rng, s)} ::
      && Simulate(m, policy, numRuns, maxSteps, rng, s).Ok?
      && |Simulate(m, policy, numRuns, maxSteps, rng, s).value.records| == numRuns
      && avg == AverageCost(Simulate(m, policy, numRuns, maxSteps, rng, s).value.records)
  }

  /**
   * Row i of the summary belongs to policy i of the list: its id is i, it
   * carries that policy and its intervention cost, and its average is the
   * average of a batch of `numRuns` runs of that policy.
   */
  lemma {:induction false} SummaryRowsMatchPolicies(m: Model, items: seq<PolicyItem>, n: nat, numRuns: nat, maxSteps: nat, rng: nat -> real, next0: nat)
    requires n <= |items|
    requires Summaries(m, items, n, numRuns, maxSteps, rng, next0).Ok?
    ensures var rows := Summaries(m, items, n, numRuns, maxSteps, rng, next0).value.rows;
            && |rows| == n
            && (forall i :: 0 <= i < n ==>
                  && rows[i].policyId == i
                  && rows[i].policy == items[i].policy
                  && rows[i].interventionCost == items[i].totalInterventionCost
                  && IsBatchAverage(m, items[i].policy, numRuns, maxSteps, rng, rows[i].avgTotalCost))
  {
    if n > 0 {
      var t := Summaries(m, items, n - 1, numRuns, maxSteps, rng, next0).value;
      SummaryRowsMatchPolicies(m, items, n - 1, numRuns, maxSteps, rng, next0);
      LastRowIsBatchAverage(m, items, n, numRuns, maxSteps, rng, next0);
      var rows := Summaries(m, items, n, numRuns, maxSteps, rng, next0).value.rows;
      assert rows == t.rows + [rows[n - 1]];
    }
  }

  lemma LastRowIsBatchAverage(m: Model, items: seq<PolicyItem>, n: nat, numRuns: nat, maxSteps: nat, rng: nat -> real, next0: nat)
    requires 0 < n <= |items|
    requires Summaries(m, items, n, numRuns, maxSteps, rng, next0).Ok?
    ensures var t := Summaries(m, items, n - 1, numRuns, maxSteps, rng, next0);
            var rows := Summaries(m, items, n, numRuns, maxSteps, rng, next0).value.rows;
            && t.Ok?
            && rows == t.value.rows + [rows[|rows| - 1]]
            && rows[|rows| - 1] == SummaryRow(n - 1, rows[|rows| - 1].avgTotalCost, items[n - 1].totalInterventionCost, items[n - 1].policy)
            && IsBatchAverage(m, items[n - 1].policy, numRuns, maxSteps, rng, rows[|rows| - 1].avgTotalCost)
  {
    var t := Summaries(m, items, n - 1, numRuns, maxSteps, rng, next0).value;
    SimulateRecords(m, items[n - 1].policy, numRuns, maxSteps, rng, t.next);
    assert Simulate(m, items[n - 1].policy, numRuns, maxSteps, rng, t.next).Ok?;
  }

  /** A sum of values that all lie in [lo, hi] lies in [n * lo, n * hi]. */
  lemma {:induction false} SumBounds(w: seq<real>, lo: real, hi: real)
    requires forall i :: 0 <= i < |w| ==> lo <= w[i] <= hi
    ensures (|w| as real) * lo <= Sum(w) <= (|w| as real) * hi
  {
    if w != [] {
      SumBounds(w[..|w| - 1], lo, hi);
    }
  }

  /**
   * The average of a full batch lies between the cheapest and the dearest
   * run; in particular it is non-negative when every run cost is.
   */
  lemma AverageCostBounds(records: seq<RunRecord>, lo: real, hi: real)
    requires |records| == NumRuns
    requires forall i :: 0 <= i < |records| ==> lo <= records[i].totalCost <= hi
    ensures lo <= AverageCost(records) <= hi
  {
    SumBounds(Costs(records), lo, hi);
  }

  // ----- the metadata -----

  /** `[k for k, v in policy.items() if v == "intervene"]` over the listed keys. */
  function InterveneStatesOf(keys: seq<State>, entries: map<State, Action>): (r: seq<State>)
    ensures |r| <= |keys|
  {
    if keys == [] then []
    else
      var k := keys[|keys| - 1];
      InterveneStatesOf(keys[..|keys| - 1], entries) + (if k in entries && entries[k] == Intervene then [k] else [])
  }

  function InterveneStates(p: Policy): seq<State>
  {
    InterveneStatesOf(p.keys, p.entries)
  }

  /**
   * The intervention states of a policy are exactly its keys mapped to
   * "intervene", each once, in the policy's key order.
   */
  lemma InterveneStatesExact(p: Policy)
    requires Valid(p)
    ensures forall s :: s in InterveneStates(p) <==> s in p.entries && p.entries[s] == Intervene
    ensures IsSubsequence(InterveneStates(p), p.keys)
    ensures Distinct(InterveneStates(p))
  {
    InterveneStatesOfExact(p.keys, p.entries);
  }

  lemma {:induction false} InterveneStatesOfExact(keys: seq<State>, entries: map<State, Action>)
    requires Distinct(keys)
    ensures forall s :: s in InterveneStatesOf(keys, entries) <==> s in keys && s in entries && entries[s] == Intervene
    ensures IsSubsequence(InterveneStatesOf(keys, entries), keys)
    ensures Distinct(InterveneStatesOf(keys, entries))
  {
    if keys != [] {
      var init := keys[..|keys| - 1];
      var k := keys[|keys| - 1];
      assert keys == init + [k];
      InterveneStatesOfExact(init, entries);
      var take := k in entries && entries[k] == Intervene;
      SubsequenceAppend(InterveneStatesOf(init, entries), init, k, take);
      assert k !in init;
    }
  }

  /** The metadata list written at the end of 2_simulate_all.py: one entry per summary row, in order. */
  function Metadata(rows: seq<SummaryRow>): (es: seq<MetaEntry>)
    ensures |es| == |rows|
    ensures forall i :: 0 <= i < |rows| ==>
              && es[i].policyId == rows[i].policyId
              && es[i].interveneStates == InterveneStates(rows[i].policy)
              && es[i].avgTotalCost == rows[i].avgTotalCost
              && es[i].interventionCost == rows[i].interventionCost
              && es[i].voi.None? && es[i].voiPerCost.None?
  {
    seq(|rows|, i requires 0 <= i < |rows| =>
      MetaEntry(rows[i].policyId, InterveneStates(rows[i].policy), rows[i].avgTotalCost, rows[i].interventionCost, None, None))
  }
}

=== FILE: generate.dfy ===
/**
 * The policy enumerator (1_generate_polity.py): every assignment of
 * no_intervention / intervene to the non-terminal states, in
 * itertools.product order, kept when its intervention cost is within the
 * budget.
 */
module PolicyGeneration {
  import opened Seqs
  import opened Dicts
  import opened Mdp
  import opened Utils

  const MaxTotalInterventionCost: real := 1.5
  const TerminalState: State := "S5"

  /** One entry of the policy list: the policy and what its interventions cost. */
  datatype PolicyItem = PolicyItem(policy: Policy, totalInterventionCost: real)

  /** `[s for s in mdp["states"] if s != TERMINAL_STATE]`. */
  function NonTerminalStates(states: seq<State>, terminal: State): (r: seq<State>)
    ensures IsSubsequence(r, states)
    ensures multiset(r) == multiset(states)[terminal := 0]
    decreases |states|
  {
    if states == [] then []
    else
      var rest := NonTerminalStates(states[1..], terminal);
      assert states == [states[0]] + states[1..];
      if states[0] == terminal then
        assert rest == [] || rest[0] in multiset(rest);
        rest
      else
        assert ([states[0]] + rest)[1..] == rest;
        [states[0]] + rest
  }

  /** The filtered list never holds the terminal state, and has no repeats when the state list has none. */
  lemma {:induction false} NonTerminalStatesDistinct(states: seq<State>, terminal: State)
    ensures terminal !in NonTerminalStates(states, terminal)
    ensures Distinct(states) ==> Distinct(NonTerminalStates(states, terminal))
    decreases |states|
  {
    var r := NonTerminalStates(states, terminal);
    assert terminal !in multiset(r);
    if states != [] && Distinct(states) {
      var rest := NonTerminalStates(states[1..], terminal);
      assert Distinct(states[1..]) by {
        forall i, j | 0 <= i < j < |states[1..]| ensures states[1..][i] != states[1..][j] {
          assert states[1..][i] == states[i + 1] && states[1..][j] == states[j + 1];
        }
      }
      NonTerminalStatesDistinct(states[1..], terminal);
      if states[0] != terminal {
        SubsequenceMultiset(rest, states[1..]);
        assert states[0] !in multiset(states[1..]);
        assert states[0] !in rest;
        assert r == [states[0]] + rest;
      }
    }
  }

  predicate HasInterventionCost(costs: CostTable, s: State)
  {
    s in costs && Intervene in costs[s]
  }

  /** The first state, from index `from` on, that has no "intervene" cost, or |states|. */
  function FirstMissingCost(states: seq<State>, costs: CostTable, from: nat): (k: nat)
    requires from <= |states|
    ensures from <= k <= |states|
    ensures forall j :: from <= j < k ==> HasInterventionCost(costs, states[j])
    ensures k < |states| ==> !HasInterventionCost(costs, states[k])
    decreases |states| - from
  {
    if from == |states| || !HasInterventionCost(costs, states[from]) then from
    else FirstMissingCost(states, costs, from + 1)
  }

  /**
   * `{state: mdp["costs"][state]["intervene"] for state in states}`: a KeyError
   * at the first state without an "intervene" cost.
   */
  function InterventionCosts(states: seq<State>, costs: CostTable): (r: Result<map<State, real>>)
    ensures r.Ok? <==> forall s :: s in states ==> HasInterventionCost(costs, s)
    ensures r.Ok? ==> forall s :: s in r.value <==> s in states
    ensures r.Ok? ==> forall s :: s in r.value ==> r.value[s] == costs[s][Intervene]
    ensures r.Err? ==> r == Err(MissingCost(states[FirstMissingCost(states, costs, 0)], Intervene))
  {
    var k := FirstMissingCost(states, costs, 0);
    if k < |states| then Err(MissingCost(states[k], Intervene))
    else
      assert forall s :: s in states ==> HasInterventionCost(costs, s);
      Ok(map s | s in states :: costs[s][Intervene])
  }

  // ----- itertools.product(["no_intervention", "intervene"], repeat=k) -----

  /** Each candidate with `b` put in front. */
  function Prepend(b: bool, xs: seq<seq<bool>>): (r: seq<seq<bool>>)
    ensures |r| == |xs|
    ensures forall i :: 0 <= i < |xs| ==> r[i] == [b] + xs[i]
  {
    seq(|xs|, i requires 0 <= i < |xs| => [b] + xs[i])
  }

  /**
   * The candidates in the order itertools.product yields them: the first
   * state varies slowest, and false (no_intervention) comes before true
   * (intervene).
   */
  function Product(k: nat): (r: seq<seq<bool>>)
    ensures |r| == Pow2(k)
    ensures forall i :: 0 <= i < |r| ==> |r[i]| == k
  {
    if k == 0 then [[]]
    else Prepend(false, Product(k - 1)) + Prepend(true, Product(k - 1))
  }

  function Pow2(k: nat): nat
  {
    if k == 0 then 1 else 2 * Pow2(k - 1)
  }

  /** Lexicographic order on action vectors with no_intervention before intervene. */
  predicate LexLess(a: seq<bool>, b: seq<bool>)
  {
    |a| > 0 && |b| > 0 && ((!a[0] && b[0]) || (a[0] == b[0] && LexLess(a[1..], b[1..])))
  }

  function AllFalse(k: nat): (a: seq<bool>)
    ensures |a| == k && forall i :: 0 <= i < k ==> !a[i]
  {
    seq(k, i => false)
  }

  lemma {:induction false} LexLessIrreflexive(a: seq<bool>)
    ensures !LexLess(a, a)
    decreases |a|
  {
    if |a| > 0 {
      LexLessIrreflexive(a[1..]);
    }
  }

  /** Every action vector of length k is a candidate. */
  lemma {:induction false} ProductComplete(k: nat, a: seq<bool>)
    requires |a| == k
    ensures a in Product(k)
  {
    if k == 0 {
      assert a == [];
    } else {
      var q := Product(k - 1);
      ProductComplete(k - 1, a[1..]);
      var j :| 0 <= j < |q| && q[j] == a[1..];
      var p := Prepend(false, q) + Prepend(true, q);
      var i := if a[0] then |q| + j else j;
      assert p[i] == [a[0]] + a[1..] == a;
    }
  }

  /** The candidates come in strictly increasing lexicographic order. */
  lemma {:induction false} ProductOrdered(k: nat)
    ensures forall i, j :: 0 <= i < j < |Product(k)| ==> LexLess(Product(k)[i], Product(k)[j])
  {
    if k > 0 {
      ProductOrdered(k - 1);
      var q := Product(k - 1);
      var p := Product(k);
      assert p == Prepend(false, q) + Prepend(true, q);
      forall i, j | 0 <= i < j < |p|
        ensures LexLess(p[i], p[j])
      {
        var n := |q|;
        if j < n {
          assert p[i] == [false] + q[i] && p[j] == [false] + q[j];
          assert p[i][1..] == q[i] && p[j][1..] == q[j];
        } else if i >= n {
          assert p[i] == [true] + q[i - n] && p[j] == [true] + q[j - n];
          assert p[i][1..] == q[i - n] && p[j][1..] == q[j - n];
        } else {
          assert p[i] == [false] + q[i] && p[j] == [true] + q[j - n];
        }
      }
    }
  }

  /** Each candidate occurs exactly once. */
  lemma ProductDistinct(k: nat)
    ensures Distinct(Product(k))
  {
    ProductOrdered(k);
    forall i, j | 0 <= i < j < |Product(k)|
      ensures Product(k)[i] != Product(k)[j]
    {
      LexLessIrreflexive(Product(k)[i]);
    }
  }

  /** The first candidate is the all-no_intervention one. */
  lemma {:induction false} ProductFirst(k: nat)
    ensures |Product(k)| > 0 && Product(k)[0] == AllFalse(k)
  {
    if k > 0 {
      ProductFirst(k - 1);
      assert Product(k)[0] == [false] + AllFalse(k - 1);
    }
  }

  // ----- building a policy and costing it -----

  function ActionName(intervene: bool): Action
  {
    if intervene then Intervene else NoIntervention
  }

  /** `{state: act for state, act in zip(states, actions)}`. */
  function ZipPolicy(states: seq<State>, acts: seq<bool>): (p: Policy)
    requires |states| == |acts|
    ensures Valid(p)
  {
    if states == [] then Empty()
    else Put(ZipPolicy(states[..|states| - 1], acts[..|acts| - 1]), states[|states| - 1], ActionName(acts[|acts| - 1]))
  }

  /** The dict comprehension, then `policy[TERMINAL_STATE] = "no_intervention"`. */
  function BuildPolicy(states: seq<State>, acts: seq<bool>, terminal: State): (p: Policy)
    requires |states| == |acts|
    ensures Valid(p)
  {
    Put(ZipPolicy(states, acts), terminal, NoIntervention)
  }

  /**
   * The zipped dict has exactly the states as keys, each mapped to one of the
   * two actions; with distinct states, in state order and each to its own action.
   */
  lemma ZipPolicyShape(states: seq<State>, acts: seq<bool>)
    requires |states| == |acts|
    ensures var p := ZipPolicy(states, acts);
            && (forall s :: s in p.entries <==> s in states)
            && (forall s :: s in p.entries ==> p.entries[s] == NoIntervention || p.entries[s] == Intervene)
            && (Distinct(states) ==> p.keys == states)
            && (Distinct(states) ==> forall i :: 0 <= i < |states| ==> p.entries[states[i]] == ActionName(acts[i]))
  {
    ZipPolicyMembers(states, acts);
    ZipPolicyActions(states, acts);
    if Distinct(states) {
      ZipPolicyOrder(states, acts);
      ZipPolicyOwnAction(states, acts);
    }
  }

  /** A state is a key of the zipped dict exactly when it is in the list. */
  lemma {:induction false} ZipPolicyMembers(states: seq<State>, acts: seq<bool>)
    requires |states| == |acts|
    ensures forall s :: s in ZipPolicy(states, acts).entries <==> s in states
    decreases |states|
  {
    if states != [] {
      var n := |states| - 1;
      var prev := ZipPolicy(states[..n], acts[..n]);
      var p := ZipPolicy(states, acts);
      assert p.entries == prev.entries[states[n] := ActionName(acts[n])];
      ZipPolicyMembers(states[..n], acts[..n]);
      forall s
        ensures s in p.entries <==> s in states
      {
        assert s in states <==> s in states[..n] || s == states[n];
      }
    }
  }

  /** With distinct states the zipped dict keeps them in list order. */
  lemma {:induction false} ZipPolicyOrder(states: seq<State>, acts: seq<bool>)
    requires |states| == |acts| && Distinct(states)
    ensures ZipPolicy(states, acts).keys == states
    decreases |states|
  {
    if states != [] {
      var n := |states| - 1;
      var prev := ZipPolicy(states[..n], acts[..n]);
      DistinctInit(states);
      ZipPolicyOrder(states[..n], acts[..n]);
      ZipPolicyMembers(states[..n], acts[..n]);
      assert states[n] !in prev.entries;
      assert ZipPolicy(states, acts).keys == states[..n] + [states[n]];
    }
  }

  /** Every zipped value is `no_intervention` or `intervene`. */
  lemma ZipPolicyActions(states: seq<State>, acts: seq<bool>)
    requires |states| == |acts|
    ensures forall s :: s in ZipPolicy(states, acts).entries ==>
              ZipPolicy(states, acts).entries[s] == NoIntervention || ZipPolicy(states, acts).entries[s] == Intervene
  {
    var p := ZipPolicy(states, acts);
    ZipPolicyMembers(states, acts);
    forall s | s in p.entries
      ensures p.entries[s] == NoIntervention || p.entries[s] == Intervene
    {
      var i :| 0 <= i < |states| && states[i] == s;
      ZipValueIsAction(states, acts, i);
    }
  }

  /** With distinct states, each state is mapped to its own action. */
  lemma ZipPolicyOwnAction(states: seq<State>, acts: seq<bool>)
    requires |states| == |acts| && Distinct(states)
    ensures forall i :: 0 <= i < |states| ==>
              states[i] in ZipPolicy(states, acts).entries && ZipPolicy(states, acts).entries[states[i]] == ActionName(acts[i])
  {
    forall i | 0 <= i < |states|
      ensures states[i] in ZipPolicy(states, acts).entries && ZipPolicy(states, acts).entries[states[i]] == ActionName(acts[i])
    {
      ZipValueIsAction(states, acts, i);
      assert LastIndex(states, states[i]) == i;
    }
  }

  /**
   * Every generated policy gives each non-terminal state an action,
   * no_intervention or intervene, and gives the terminal state
   * no_intervention; with distinct states, each state gets its own action.
   */
  lemma BuildPolicyShape(states: seq<State>, acts: seq<bool>, terminal: State)
    requires |states| == |acts|
    ensures var p := BuildPolicy(states, acts, terminal);
            && (forall s :: s in p.entries <==> s in states || s == terminal)
            && (forall s :: s in p.entries ==> p.entries[s] == NoIntervention || p.entries[s] == Intervene)
            && p.entries[terminal] == NoIntervention
            && GetAction(terminal, p) == NoIntervention
            && (Distinct(states) && terminal !in states ==> p.keys == states + [terminal])
            && (Distinct(states) && terminal !in states ==>
                  forall i :: 0 <= i < |states| ==> GetAction(states[i], p) == ActionName(acts[i]))
  {
    ZipPolicyShape(states, acts);
  }

  predicate NonNegativeCosts(icosts: map<State, real>)
  {
    forall s :: s in icosts ==> icosts[s] >= 0.0
  }

  predicate NeverIntervenes(p: Policy)
  {
    forall s :: s in p.entries ==> p.entries[s] == NoIntervention
  }

  /** What one `(state, act)` item adds to the total. */
  function ItemCost(state: State, act: Action, icosts: map<State, real>): real
  {
    if state in icosts && act == Intervene then icosts[state] else 0.0
  }

  /** The sum over the listed keys, in order. */
  function KeysCost(keys: seq<State>, entries: map<State, Action>, icosts: map<State, real>): (c: real)
    requires forall k :: k in keys ==> k in entries
    ensures NonNegativeCosts(icosts) ==> c >= 0.0
  {
    if keys == [] then 0.0
    else KeysCost(keys[..|keys| - 1], entries, icosts) + ItemCost(keys[|keys| - 1], entries[keys[|keys| - 1]], icosts)
  }

  /** `total_cost`: the sum over `policy.items()` restricted to the keys of `intervention_costs`. */
  function PolicyCost(p: Policy, icosts: map<State, real>): real
    requires Valid(p)
  {
    KeysCost(p.keys, p.entries, icosts)
  }

  /**
   * `total_cost` is never negative when no intervention cost is, and is 0
   * for a policy that never intervenes, whatever the costs.
   */
  lemma PolicyCostBounds(p: Policy, icosts: map<State, real>)
    requires Valid(p)
    ensures NonNegativeCosts(icosts) ==> PolicyCost(p, icosts) >= 0.0
    ensures NeverIntervenes(p) ==> PolicyCost(p, icosts) == 0.0
  {
    if NeverIntervenes(p) {
      KeysCostNoIntervention(p.keys, p.entries, icosts);
    }
  }

  /** Reference definition: the costs of the states whose action is intervene. */
  function SelectedCost(states: seq<State>, acts: seq<bool>, icosts: map<State, real>): real
    requires |states| == |acts|
    requires forall s :: s in states ==> s in icosts
  {
    if states == [] then 0.0
    else
      var n := |states| - 1;
      SelectedCost(states[..n], acts[..n], icosts) + (if acts[n] then icosts[states[n]] else 0.0)
  }

  lemma {:induction false} KeysCostIsSelected(states: seq<State>, acts: seq<bool>, entries: map<State, Action>, icosts: map<State, real>)
    requires |states| == |acts|
    requires forall s :: s in states ==> s in icosts
    requires forall i :: 0 <= i < |states| ==> states[i] in entries && entries[states[i]] == ActionName(acts[i])
    ensures KeysCost(states, entries, icosts) == SelectedCost(states, acts, icosts)
    decreases |states|
  {
    if states != [] {
      var n := |states| - 1;
      KeysCostIsSelected(states[..n], acts[..n], entries, icosts);
    }
  }

  /**
   * `total_cost` is the sum of the intervention costs of exactly the states
   * assigned intervene; the terminal state adds nothing.
   */
  lemma PolicyCostIsSelected(states: seq<State>, acts: seq<bool>, terminal: State, icosts: map<State, real>)
    requires |states| == |acts| && Distinct(states) && terminal !in states
    requires forall s :: s in icosts <==> s in states
    ensures PolicyCost(BuildPolicy(states, acts, terminal), icosts) == SelectedCost(states, acts, icosts)
  {
    var p := BuildPolicy(states, acts, terminal);
    BuildPolicyShape(states, acts, terminal);
    assert p.keys[..|states|] == states;
    KeysCostIsSelected(states, acts, p.entries, icosts);
  }

  /** The policy-list entry for one candidate. */
  function CandidateItem(states: seq<State>, acts: seq<bool>, terminal: State, icosts: map<State, real>): PolicyItem
    requires |states| == |acts|
  {
    var p := BuildPolicy(states, acts, terminal);
    PolicyItem(p, PolicyCost(p, icosts))
  }

  /** The policy-list entries of all candidates, in candidate order. */
  function Candidates(states: seq<State>, cands: seq<seq<bool>>, terminal: State, icosts: map<State, real>): (items: seq<PolicyItem>)
    requires forall c :: c in cands ==> |c| == |states|
    ensures |items| == |cands|
    ensures forall i :: 0 <= i < |cands| ==> items[i] == CandidateItem(states, cands[i], terminal, icosts)
  {
    seq(|cands|, i requires 0 <= i < |cands| => CandidateItem(states, cands[i], terminal, icosts))
  }

  /** `if total_cost <= MAX_TOTAL_INTERVENTION_COST: valid_policies.append(...)` over a list of entries. */
  function WithinBudget(items: seq<PolicyItem>, budget: real): (kept: seq<PolicyItem>)
    ensures |kept| <= |items|
    ensures forall i :: 0 <= i < |kept| ==> kept[i].totalInterventionCost <= budget
  {
    if items == [] then []
    else
      var last := items[|items| - 1];
      WithinBudget(items[..|items| - 1], budget) + (if last.totalInterventionCost <= budget then [last] else [])
  }

  /** The whole script: the state filter, the cost table, then the filtered product. */
  function Generated(mdpStates: seq<State>, costs: CostTable, terminal: State, budget: real): (r: Result<seq<PolicyItem>>)
    ensures r.Err? <==> exists s :: s in NonTerminalStates(mdpStates, terminal) && !HasInterventionCost(costs, s)
    ensures r.Ok? ==> |r.value| <= Pow2(|NonTerminalStates(mdpStates, terminal)|)
    ensures r.Ok? ==> forall i :: 0 <= i < |r.value| ==> r.value[i].totalInterventionCost <= budget
  {
    var states := NonTerminalStates(mdpStates, terminal);
    match InterventionCosts(states, costs)
    case Err(e) => Err(e)
    case Ok(icosts) =>
      Ok(WithinBudget(Candidates(states, Product(|states|), terminal, icosts), budget))
  }

  /** The generation loop of 1_generate_polity.py. */
  method GeneratePolicies(mdpStates: seq<State>, costs: CostTable, terminal: State, budget: real)
    returns (r: Result<seq<PolicyItem>>)
    ensures r == Generated(mdpStates, costs, terminal, budget)
  {
    var states := NonTerminalStates(mdpStates, terminal);
    var ic := InterventionCosts(states, costs);
    if ic.Err? {
      return Err(ic.error);
    }
    var valid := FilterProduct(states, Product(|states|), ic.value, terminal, budget);
    r := Ok(valid);
  }

  /** The `for actions in product(...)` loop: build, cost and keep each candidate in turn. */
  method FilterProduct(states: seq<State>, cands: seq<seq<bool>>, icosts: map<State, real>, terminal: State, budget: real)
    returns (valid: seq<PolicyItem>)
    requires forall c :: c in cands ==> |c| == |states|
    ensures valid == WithinBudget(Candidates(states, cands, terminal, icosts), budget)
  {
    ghost var items := Candidates(states, cands, terminal, icosts);
    valid := [];
    for i := 0 to |cands|
      invariant valid == WithinBudget(items[..i], budget)
    {
      var item := CandidateItem(states, cands[i], terminal, icosts);
      WithinBudgetStep(items, i, budget);
      if item.totalInterventionCost <= budget {
        valid := valid + [item];
      }
    }
    assert items[..|cands|] == items;
  }

  /** One more entry of the loop's input is one more test against the budget. */
  lemma WithinBudgetStep(items: seq<PolicyItem>, i: nat, budget: real)
    requires i < |items|
    ensures WithinBudget(items[..i + 1], budget)
         == WithinBudget(items[..i], budget) + (if items[i].totalInterventionCost <= budget then [items[i]] else [])
  {
    assert items[..i + 1][..i] == items[..i];
  }

  // ----- what the enumeration promises -----

  /** The filter keeps every entry within the budget as often as it occurs, and no other entry. */
  lemma {:induction false} WithinBudgetMembers(items: seq<PolicyItem>, budget: real)
    ensures forall x :: x in WithinBudget(items, budget) <==> x in items && x.totalInterventionCost <= budget
    ensures forall x :: multiset(WithinBudget(items, budget))[x] == if x.totalInterventionCost <= budget then multiset(items)[x] else 0
    decreases |items|
  {
    if items != [] {
      var n := |items| - 1;
      WithinBudgetMembers(items[..n], budget);
      assert items == items[..n] + [items[n]];
    }
  }

  lemma {:induction false} WithinBudgetSubsequence(items: seq<PolicyItem>, budget: real)
    ensures IsSubsequence(WithinBudget(items, budget), items)
    decreases |items|
  {
    if items != [] {
      var n := |items| - 1;
      WithinBudgetSubsequence(items[..n], budget);
      SubsequenceAppend(WithinBudget(items[..n], budget), items[..n], items[n], items[n].totalInterventionCost <= budget);
      assert items == items[..n] + [items[n]];
    }
  }

  lemma {:induction false} WithinBudgetAll(items: seq<PolicyItem>, budget: real)
    requires forall i :: 0 <= i < |items| ==> items[i].totalInterventionCost <= budget
    ensures WithinBudget(items, budget) == items
    decreases |items|
  {
    if items != [] {
      var n := |items| - 1;
      WithinBudgetAll(items[..n], budget);
      assert items == items[..n] + [items[n]];
    }
  }

  lemma {:induction false} WithinBudgetFirst(items: seq<PolicyItem>, budget: real)
    requires items != [] && items[0].totalInterventionCost <= budget
    ensures var kept := WithinBudget(items, budget);
            kept != [] && kept[0] == items[0]
    decreases |items|
  {
    if |items| > 1 {
      var n := |items| - 1;
      WithinBudgetFirst(items[..n], budget);
    }
  }

  /** Every entry of a candidate list is the entry of some action vector of the right length. */
  lemma CandidatesAreItems(states: seq<State>, cands: seq<seq<bool>>, icosts: map<State, real>, terminal: State)
    requires forall c :: c in cands ==> |c| == |states|
    ensures var items := Candidates(states, cands, terminal, icosts);
            forall x :: x in items ==> exists c {:trigger CandidateItem(states, c, terminal, icosts)} :: |c| == |states| && x == CandidateItem(states, c, terminal, icosts)
  {
    var items := Candidates(states, cands, terminal, icosts);
    forall x | x in items
      ensures exists c {:trigger CandidateItem(states, c, terminal, icosts)} :: |c| == |states| && x == CandidateItem(states, c, terminal, icosts)
    {
      var i :| 0 <= i < |items| && items[i] == x;
      var c := cands[i];
      assert x == CandidateItem(states, c, terminal, icosts);
    }
  }

  /** The entry of every action vector of the right length is in a candidate list that holds all such vectors. */
  lemma CandidatesComplete(states: seq<State>, cands: seq<seq<bool>>, icosts: map<State, real>, terminal: State)
    requires forall c :: c in cands ==> |c| == |states|
    requires forall c :: |c| == |states| ==> c in cands
    ensures var items := Candidates(states, cands, terminal, icosts);
            forall c {:trigger CandidateItem(states, c, terminal, icosts)} :: |c| == |states| ==> CandidateItem(states, c, terminal, icosts) in items
  {
    var items := Candidates(states, cands, terminal, icosts);
    forall c | |c| == |states|
      ensures CandidateItem(states, c, terminal, icosts) in items
    {
      var i :| 0 <= i < |cands| && cands[i] == c;
      assert items[i] == CandidateItem(states, c, terminal, icosts);
    }
  }

  /** Soundness and completeness of the filter over the whole product, for given states and costs. */
  lemma ProductFilterSoundAndComplete(states: seq<State>, icosts: map<State, real>, terminal: State, budget: real)
    ensures var items := Candidates(states, Product(|states|), terminal, icosts);
            var kept := WithinBudget(items, budget);
            && (forall x :: x in kept ==> x.totalInterventionCost <= budget)
            && (forall x :: x in kept ==> exists c {:trigger CandidateItem(states, c, terminal, icosts)} :: |c| == |states| && x == CandidateItem(states, c, terminal, icosts))
            && (forall c {:trigger CandidateItem(states, c, terminal, icosts)} :: |c| == |states| && CandidateItem(states, c, terminal, icosts).totalInterventionCost <= budget ==>
                  CandidateItem(states, c, terminal, icosts) in kept)
            && IsSubsequence(kept, items)
  {
    var items := Candidates(states, Product(|states|), terminal, icosts);
    WithinBudgetMembers(items, budget);
    WithinBudgetSubsequence(items, budget);
    CandidatesAreItems(states, Product(|states|), icosts, terminal);
    forall c | |c| == |states| ensures c in Product(|states|) {
      ProductComplete(|states|, c);
    }
    CandidatesComplete(states, Product(|states|), icosts, terminal);
  }

  /**
   * The filter is sound and complete: no kept policy is over the budget,
   * every kept policy is a candidate, no candidate within the budget is
   * dropped, and the kept ones stay in product order.
   */
  lemma GeneratedSoundAndComplete(mdpStates: seq<State>, costs: CostTable, terminal: State, budget: real)
    requires Generated(mdpStates, costs, terminal, budget).Ok?
    ensures var states := NonTerminalStates(mdpStates, terminal);
            var icosts := InterventionCosts(states, costs).value;
            var kept := Generated(mdpStates, costs, terminal, budget).value;
            && (forall x :: x in kept ==> x.totalInterventionCost <= budget)
            && (forall x :: x in kept ==> exists c {:trigger CandidateItem(states, c, terminal, icosts)} :: |c| == |states| && x == CandidateItem(states, c, terminal, icosts))
            && (forall c {:trigger CandidateItem(states, c, terminal, icosts)} :: |c| == |states| && CandidateItem(states, c, terminal, icosts).totalInterventionCost <= budget ==>
                  CandidateItem(states, c, terminal, icosts) in kept)
            && IsSubsequence(kept, Candidates(states, Product(|states|), terminal, icosts))
  {
    var states := NonTerminalStates(mdpStates, terminal);
    ProductFilterSoundAndComplete(states, InterventionCosts(states, costs).value, terminal, budget);
  }

  /**
   * Generation fails exactly when some non-terminal state has no intervene
   * cost, and then with the KeyError of the first such state in state order:
   * that state lacks the cost and every earlier one has it. No policy list
   * is produced.
   */
  lemma GeneratedFailsIffMissingCost(mdpStates: seq<State>, costs: CostTable, terminal: State, budget: real)
    ensures var states := NonTerminalStates(mdpStates, terminal);
            var r := Generated(mdpStates, costs, terminal, budget);
            && (r.Err? <==> exists s :: s in states && !HasInterventionCost(costs, s))
            && (r.Err? ==> exists s :: s in mdpStates && s != terminal && r.error == MissingCost(s, Intervene))
            && (r.Err? ==> var k := FirstMissingCost(states, costs, 0);
                  && k < |states|
                  && r.error == MissingCost(states[k], Intervene)
                  && !HasInterventionCost(costs, states[k])
                  && forall j :: 0 <= j < k ==> HasInterventionCost(costs, states[j]))
  {
    var states := NonTerminalStates(mdpStates, terminal);
    var r := Generated(mdpStates, costs, terminal, budget);
    if r.Err? {
      var s := states[FirstMissingCost(states, costs, 0)];
      assert s in multiset(states);
      assert s in mdpStates && s != terminal;
    }
  }

  /** With every candidate within the budget, the filter keeps all 2^k of them in product order. */
  lemma ProductAllWithinBudget(states: seq<State>, icosts: map<State, real>, terminal: State, budget: real)
    requires forall c {:trigger CandidateItem(states, c, terminal, icosts)} :: |c| == |states| ==> CandidateItem(states, c, terminal, icosts).totalInterventionCost <= budget
    ensures var kept := WithinBudget(Candidates(states, Product(|states|), terminal, icosts), budget);
            && |kept| == Pow2(|states|)
            && forall i :: 0 <= i < |kept| ==> kept[i] == CandidateItem(states, Product(|states|)[i], terminal, icosts)
  {
    var k := |states|;
    var items := Candidates(states, Product(k), terminal, icosts);
    forall i | 0 <= i < |items|
      ensures items[i].totalInterventionCost <= budget
    {
      var c := Product(k)[i];
      assert |c| == k;
      assert items[i] == CandidateItem(states, c, terminal, icosts);
    }
    WithinBudgetAll(items, budget);
  }

  lemma {:induction false} KeysCostNoIntervention(keys: seq<State>, entries: map<State, Action>, icosts: map<State, real>)
    requires forall k :: k in keys ==> k in entries && entries[k] == NoIntervention
    ensures KeysCost(keys, entries, icosts) == 0.0
    decreases |keys|
  {
    if keys != [] {
      KeysCostNoIntervention(keys[..|keys| - 1], entries, icosts);
    }
  }

  /**
   * 1_generate_polity.py with its own constants: terminal state S5 and a
   * budget of 1.5. Its list, when produced, starts with the policy that
   * never intervenes, at cost 0, which the VoI baseline later relies on.
   */
  function ScriptPolicies(mdpStates: seq<State>, costs: CostTable): (r: Result<seq<PolicyItem>>)
    ensures r.Ok? ==> r.value != [] && r.value[0].totalInterventionCost == 0.0
    ensures r.Ok? ==> forall i :: 0 <= i < |r.value| ==> r.value[i].totalInterventionCost <= MaxTotalInterventionCost
  {
    var r := Generated(mdpStates, costs, TerminalState, MaxTotalInterventionCost);
    if r.Ok? then
      GeneratedStartsWithBaseline(mdpStates, costs, TerminalState, MaxTotalInterventionCost);
      r
    else r
  }

  /** With a non-negative budget the first kept policy is the all-no_intervention one, of cost 0. */
  lemma GeneratedStartsWithBaseline(mdpStates: seq<State>, costs: CostTable, terminal: State, budget: real)
    requires Generated(mdpStates, costs, terminal, budget).Ok?
    requires budget >= 0.0
    ensures var states := NonTerminalStates(mdpStates, terminal);
            var icosts := InterventionCosts(states, costs).value;
            var kept := Generated(mdpStates, costs, terminal, budget).value;
            && kept != []
            && kept[0] == CandidateItem(states, AllFalse(|states|), terminal, icosts)
            && kept[0].totalInterventionCost == 0.0
  {
    var states := NonTerminalStates(mdpStates, terminal);
    var icosts := InterventionCosts(states, costs).value;
    BaselineCostsNothing(states, terminal, icosts);
    ProductFirst(|states|);
    WithinBudgetFirst(Candidates(states, Product(|states|), terminal, icosts), budget);
  }

  /** The all-no_intervention policy costs nothing, whatever the intervention costs. */
  lemma BaselineCostsNothing(states: seq<State>, terminal: State, icosts: map<State, real>)
    ensures CandidateItem(states, AllFalse(|states|), terminal, icosts).totalInterventionCost == 0.0
  {
    var a := AllFalse(|states|);
    var p := BuildPolicy(states, a, terminal);
    ZipPolicyShape(states, a);
    forall s | s in p.entries
      ensures p.entries[s] == NoIntervention
    {
      if s != terminal {
        assert s in ZipPolicy(states, a).entries;
        var i :| 0 <= i < |states| && states[i] == s;
        ZipValueIsAction(states, a, i);
      }
    }
    KeysCostNoIntervention(p.keys, p.entries, icosts);
  }

  /** The last position of s in the list, or -1 when s does not occur. */
  function LastIndex(states: seq<State>, s: State): (j: int)
    ensures -1 <= j < |states|
    ensures j >= 0 ==> states[j] == s
    ensures j < 0 ==> s !in states
    ensures forall k :: j < k < |states| ==> states[k] != s
  {
    if states == [] then -1
    else if states[|states| - 1] == s then |states| - 1
    else LastIndex(states[..|states| - 1], s)
  }

  /** The value a state ends up with is the action of its last position: a later pair overwrites an earlier one. */
  lemma {:induction false} ZipValueIsAction(states: seq<State>, acts: seq<bool>, i: nat)
    requires |states| == |acts| && i < |states|
    ensures states[i] in ZipPolicy(states, acts).entries
    ensures var j := LastIndex(states, states[i]);
            0 <= j && ZipPolicy(states, acts).entries[states[i]] == ActionName(acts[j])
    decreases |states|
  {
    var n := |states| - 1;
    var prev := ZipPolicy(states[..n], acts[..n]);
    var p := ZipPolicy(states, acts);
    assert p.entries == prev.entries[states[n] := ActionName(acts[n])];
    if states[i] != states[n] {
      ZipValueIsAction(states[..n], acts[..n], i);
      assert states[..n][i] == states[i];
      var j := LastIndex(states[..n], states[i]);
      assert acts[..n][j] == acts[j];
    }
  }
}

=== FILE: mdp.dfy ===
/**
 * The Markov decision process the pipeline works on, as the scripts read it
 * from its JSON description, and the errors the scripts can raise.
 */
module Mdp {
  import opened Dicts

  type State = string
  type Action = string

  const NoIntervention: Action := "no_intervention"
  const Intervene: Action := "intervene"

  /** `costs[state][action]`: the cost of taking `action` for one step in `state`. */
  type CostTable = map<State, map<Action, real>>

  /** `transitions[state][action]`: next state to probability, in the order the file lists them. */
  type TransitionRow = Dict<real>
  type TransitionTable = map<State, map<Action, TransitionRow>>

  datatype Model = Model(
    states: seq<State>,
    costs: CostTable,
    transitions: TransitionTable,
    initialState: State,
    terminalStates: set<State>)

  /** A policy is a dict from state to action name. */
  type Policy = Dict<Action>

  /** The exceptions the scripts raise, with the state, action or policy they concern where there is one. */
  datatype Error =
    | MissingCost(state: State, action: Action)        // KeyError on costs[state][action]
    | MissingTransition(state: State, action: Action)  // KeyError on transitions[state][action]
    | EmptyTransitionRow(state: State, action: Action) // IndexError inside random.choices
    | NoPositiveWeight(state: State, action: Action)   // ValueError: weights total <= 0
    | NoBaselineRow                                    // IndexError on .values[0]
    | MissingVoI(policyId: int)                        // KeyError on p['VoI']
    | MalformedNode                                    // ValueError from ast.literal_eval on a non-string

  datatype Result<T> = Ok(value: T) | Err(error: Error)

  /** A field a record may not have yet. */
  datatype Option<T> = None | Some(value: T)

  /** `mdp['costs'][state][action]`. */
  function LookupCost(costs: CostTable, state: State, action: Action): (r: Result<real>)
    ensures r.Ok? <==> state in costs && action in costs[state]
    ensures r.Ok? ==> r.value == costs[state][action]
    ensures r.Err? ==> r.error == MissingCost(state, action)
  {
    if state in costs && action in costs[state] then Ok(costs[state][action])
    else Err(MissingCost(state, action))
  }
}

=== FILE: seqs.dfy ===
/** Sequence vocabulary shared by the whole model. */
module Seqs {

  /** No element occurs twice. */
  predicate Distinct<T(==)>(s: seq<T>)
  {
    forall i, j :: 0 <= i < j < |s| ==> s[i] != s[j]
  }

  /** `sub` is obtained from `s` by deleting elements, keeping the order of the rest. */
  predicate IsSubsequence<T(==)>(sub: seq<T>, s: seq<T>)
    decreases |s|
  {
    if sub == [] then true
    else if s == [] then false
    else if sub[0] == s[0] then IsSubsequence(sub[1..], s[1..])
    else IsSubsequence(sub, s[1..])
  }

  /** Sum of a sequence of reals, added from left to right. */
  function Sum(w: seq<real>): real
  {
    if w == [] then 0.0 else Sum(w[..|w| - 1]) + w[|w| - 1]
  }

  /** Dropping the last element of a list without repeats leaves a list without repeats that lacks it. */
  lemma DistinctInit<T>(s: seq<T>)
    requires Distinct(s) && s != []
    ensures Distinct(s[..|s| - 1]) && s[|s| - 1] !in s[..|s| - 1]
  {
  }

  /** A sum of non-negative terms is non-negative. */
  lemma {:induction false} SumNonNegative(w: seq<real>)
    ensures (forall i :: 0 <= i < |w| ==> w[i] >= 0.0) ==> Sum(w) >= 0.0
  {
    if w != [] {
      SumNonNegative(w[..|w| - 1]);
    }
  }

  /** Every sequence is a subsequence of itself. */
  lemma {:induction false} SubsequenceRefl<T>(s: seq<T>)
    ensures IsSubsequence(s, s)
    decreases |s|
  {
    if s != [] {
      SubsequenceRefl(s[1..]);
    }
  }

  /** The elements of a subsequence are elements of the whole, without losing multiplicity. */
  lemma {:induction false} SubsequenceMultiset<T>(sub: seq<T>, s: seq<T>)
    requires IsSubsequence(sub, s)
    ensures multiset(sub) <= multiset(s)
    decreases |s|
  {
    if sub != [] {
      assert s != [];
      assert s == [s[0]] + s[1..];
      if sub[0] == s[0] {
        SubsequenceMultiset(sub[1..], s[1..]);
        assert sub == [sub[0]] + sub[1..];
      } else {
        SubsequenceMultiset(sub, s[1..]);
      }
    }
  }

  /** Extending the whole by one element, and the part by that element or not, keeps the relation. */
  lemma {:induction false} SubsequenceAppend<T>(sub: seq<T>, s: seq<T>, x: T, take: bool)
    requires IsSubsequence(sub, s)
    ensures IsSubsequence(sub + (if take then [x] else []), s + [x])
    decreases |s|
  {
    if s == [] {
      assert sub == [];
      if take {
        assert IsSubsequence([x][1..], []);
      }
    } else if sub == [] {
      if take {
        SubsequenceAppend([], s[1..], x, take);
        assert (s + [x])[1..] == s[1..] + [x];
      }
    } else {
      assert (s + [x])[1..] == s[1..] + [x];
      var sub' := sub + (if take then [x] else []);
      if sub[0] == s[0] {
        SubsequenceAppend(sub[1..], s[1..], x, take);
        assert sub'[1..] == sub[1..] + (if take then [x] else []);
      } else {
        SubsequenceAppend(sub, s[1..], x, take);
      }
    }
  }
}

=== FILE: simulation.dfy ===
/**
 * `run_simulation` (2_simulate_all.py, and its copy in simulate.py): Monte
 * Carlo rollouts of one policy. The global random generator is the stream
 * `rng` of the numbers `random.random()` returns, read from position `next`
 * on; each call of `sample_next_state` consumes one number.
 */
module Simulation {
  import opened Seqs
  import opened Dicts
  import opened Mdp
  import opened Utils

  /** One charged step of a run: the state, the action the policy took there, and its cost. */
  datatype Step = Step(state: State, action: Action, cost: real)

  /**
   * A run after some iterations of the inner loop: the charged steps in
   * order, the current state, `total_cost`, the next unused draw, and
   * whether the loop has stopped at a terminal state.
   */
  datatype Progress = Progress(trace: seq<Step>, state: State, totalCost: real, next: nat, stopped: bool)

  /** `{'run': run, 'final_state': state, 'total_cost': total_cost}`. */
  datatype RunRecord = RunRecord(run: nat, finalState: State, totalCost: real)

  /** The records of a batch of runs, and the next unused draw after it. */
  datatype Batch = Batch(records: seq<RunRecord>, next: nat)

  /** The costs charged along a trace, in order. */
  function StepCosts(trace: seq<Step>): (w: seq<real>)
    ensures |w| == |trace|
    ensures forall i :: 0 <= i < |trace| ==> w[i] == trace[i].cost
  {
    seq(|trace|, i requires 0 <= i < |trace| => trace[i].cost)
  }

  /** What `total_cost += cost` adds up to over a trace, from left to right. */
  function TraceCost(trace: seq<Step>): real
  {
    Sum(StepCosts(trace))
  }

  /**
   * One iteration of the inner loop: charge the cost of the policy's action
   * in the current state, stop if the state is terminal, otherwise move to
   * the sampled next state. A missing cost or transition aborts with the
   * script's exception; a stopped run stays as it is.
   */
  function Advance(m: Model, policy: Policy, p: Progress, rng: nat -> real): (r: Result<Progress>)
    ensures p.stopped ==> r == Ok(p)
    ensures !p.stopped ==>
              var action := GetAction(p.state, policy);
              var cost := LookupCost(m.costs, p.state, action);
              r.Err? <==> cost.Err? || (p.state !in m.terminalStates && !CanSample(p.state, action, m.transitions))
    ensures !p.stopped && r.Ok? ==>
              var action := GetAction(p.state, policy);
              var cost := LookupCost(m.costs, p.state, action).value;
              var q := r.value;
              && q.trace == p.trace + [Step(p.state, action, cost)]
              && q.totalCost == p.totalCost + cost
              && (q.stopped <==> p.state in m.terminalStates)
              && (q.stopped ==> q.state == p.state && q.next == p.next)
              && (!q.stopped ==> q.next == p.next + 1 && SampleNextState(p.state, action, m.transitions, rng(p.next)) == Ok(q.state))
  {
    if p.stopped then Ok(p)
    else
      var action := GetAction(p.state, policy);
      match LookupCost(m.costs, p.state, action)
      case Err(e) => Err(e)
      case Ok(c) =>
        var trace := p.trace + [Step(p.state, action, c)];
        var total := p.totalCost + c;
        if p.state in m.terminalStates then Ok(Progress(trace, p.state, total, p.next, true))
        else
          match SampleNextState(p.state, action, m.transitions, rng(p.next))
          case Err(e) => Err(e)
          case Ok(succ) => Ok(Progress(trace, succ, total, p.next + 1, false))
  }

  /** A run from `init` after k iterations of the inner loop, reading draws from `start` on. */
  function Iterate(m: Model, policy: Policy, init: State, k: nat, rng: nat -> real, start: nat): Result<Progress>
  {
    if k == 0 then Ok(Progress([], init, 0.0, start, false))
    else
      match Iterate(m, policy, init, k - 1, rng, start)
      case Err(e) => Err(e)
      case Ok(p) => Advance(m, policy, p, rng)
  }

  /** One run of at most `maxSteps` iterations from the initial state. */
  function Run(m: Model, policy: Policy, maxSteps: nat, rng: nat -> real, start: nat): Result<Progress>
  {
    Iterate(m, policy, m.initialState, maxSteps, rng, start)
  }

  /** `results` after `numRuns` iterations of the outer loop. */
  function Simulate(m: Model, policy: Policy, numRuns: nat, maxSteps: nat, rng: nat -> real, next: nat): Result<Batch>
    decreases numRuns
  {
    if numRuns == 0 then Ok(Batch([], next))
    else
      match Simulate(m, policy, numRuns - 1, maxSteps, rng, next)
      case Err(e) => Err(e)
      case Ok(b) =>
        match Run(m, policy, maxSteps, rng, b.next)
        case Err(e) => Err(e)
        case Ok(p) => Ok(Batch(b.records + [RunRecord(numRuns - 1, p.state, p.totalCost)], p.next))
  }

  // ----- the loops -----

  /** `run_simulation(mdp, policy_fn, num_runs, max_steps)`: the outer loop, one record per run. */
  method RunSimulation(m: Model, policy: Policy, numRuns: nat, maxSteps: nat, rng: nat -> real, next0: nat)
    returns (r: Result<Batch>)
    ensures r == Simulate(m, policy, numRuns, maxSteps, rng, next0)
  {
    var results: seq<RunRecord> := [];
    var next := next0;
    for run := 0 to numRuns
      invariant Simulate(m, policy, run, maxSteps, rng, next0) == Ok(Batch(results, next))
    {
      var record, after := RunOnce(m, policy, run, maxSteps, rng, next);
      if record.Err? {
        SimulateErrPersists(m, policy, run + 1, numRuns, maxSteps, rng, next0);
        return Err(record.error);
      }
      results := results + [record.value];
      next := after;
    }
    r := Ok(Batch(results, next));
  }

  /**
   * The body of the outer loop of `run_simulation`: start at the initial
   * state with cost 0, then run the inner loop for at most `maxSteps`
   * iterations.
   */
  method RunOnce(m: Model, policy: Policy, run: nat, maxSteps: nat, rng: nat -> real, start: nat)
    returns (r: Result<RunRecord>, next: nat)
    ensures var w := Run(m, policy, maxSteps, rng, start);
            && (w.Err? ==> r == Err(w.error))
            && (w.Ok? ==> r == Ok(RunRecord(run, w.value.state, w.value.totalCost)) && next == w.value.next)
  {
    next := start;
    var state := m.initialState;
    var totalCost := 0.0;
    var t := 0;
    while t < maxSteps
      invariant t <= maxSteps
      invariant var it := Iterate(m, policy, m.initialState, t, rng, start);
                it.Ok? && it.value.state == state && it.value.totalCost == totalCost && it.value.next == next && !it.value.stopped
    {
      IterateNext(m, policy, m.initialState, t, rng, start);
      ghost var after := Iterate(m, policy, m.initialState, t + 1, rng, start);
      var action := GetAction(state, policy);
      var cost := LookupCost(m.costs, state, action);
      if cost.Err? {
        assert after == Err(cost.error);
        IterateSettled(m, policy, m.initialState, t + 1, maxSteps, rng, start);
        return Err(cost.error), next;
      }
      totalCost := totalCost + cost.value;
      if state in m.terminalStates {
        assert after.Ok? && after.value.stopped && after.value.state == state && after.value.totalCost == totalCost;
        IterateSettled(m, policy, m.initialState, t + 1, maxSteps, rng, start);
        break;
      }
      var succ := SampleNextState(state, action, m.transitions, rng(next));
      if succ.Err? {
        assert after == Err(succ.error);
        IterateSettled(m, policy, m.initialState, t + 1, maxSteps, rng, start);
        return Err(succ.error), next;
      }
      state := succ.value;
      next := next + 1;
      t := t + 1;
    }
    r := Ok(RunRecord(run, state, totalCost));
  }

  lemma IterateNext(m: Model, policy: Policy, init: State, k: nat, rng: nat -> real, start: nat)
    requires Iterate(m, policy, init, k, rng, start).Ok?
    ensures Iterate(m, policy, init, k + 1, rng, start) == Advance(m, policy, Iterate(m, policy, init, k, rng, start).value, rng)
  {
  }

  // ----- what a run is -----

  /** Every charged step took the policy's action and was charged the cost the table lists for it. */
  ghost predicate FollowsPolicy(m: Model, policy: Policy, trace: seq<Step>)
  {
    forall i :: 0 <= i < |trace| ==>
      && trace[i].action == GetAction(trace[i].state, policy)
      && LookupCost(m.costs, trace[i].state, trace[i].action) == Ok(trace[i].cost)
  }

  /**
   * Every charged step but the last is at a non-terminal state, and the next
   * step's state is what the sampler picked there with the step's own draw.
   */
  ghost predicate Linked(m: Model, trace: seq<Step>, rng: nat -> real, start: nat)
  {
    forall i :: 0 <= i < |trace| - 1 ==>
      && trace[i].state !in m.terminalStates
      && SampleNextState(trace[i].state, trace[i].action, m.transitions, rng(start + i)) == Ok(trace[i + 1].state)
  }

  /**
   * How a run of k iterations ends: either it stopped at the terminal state
   * it charged last, or it charged exactly k states and stands at the state
   * sampled after the last of them; the cost is the sum over the trace, and
   * one draw was used per charged non-terminal state.
   */
  ghost predicate Ends(m: Model, init: State, p: Progress, k: nat, rng: nat -> real, start: nat)
  {
    && |p.trace| <= k
    && (|p.trace| > 0 ==> p.trace[0].state == init)
    && p.totalCost == TraceCost(p.trace)
    && if p.stopped then
         && p.trace != []
         && p.trace[|p.trace| - 1].state == p.state
         && p.state in m.terminalStates
         && p.next == start + |p.trace| - 1
       else
         && |p.trace| == k
         && p.next == start + |p.trace|
         && (p.trace == [] ==> p.state == init)
         && (p.trace != [] ==>
               var last := p.trace[|p.trace| - 1];
               last.state !in m.terminalStates
               && SampleNextState(last.state, last.action, m.transitions, rng(start + |p.trace| - 1)) == Ok(p.state))
  }

  /** `p` is where the inner loop can stand after k iterations from `init`. */
  ghost predicate IsRun(m: Model, policy: Policy, init: State, p: Progress, k: nat, rng: nat -> real, start: nat)
  {
    FollowsPolicy(m, policy, p.trace) && Linked(m, p.trace, rng, start) && Ends(m, init, p, k, rng, start)
  }

  /** Every successful run of the inner loop is a run in the sense above. */
  lemma {:induction false} IterateIsRun(m: Model, policy: Policy, init: State, k: nat, rng: nat -> real, start: nat)
    requires Iterate(m, policy, init, k, rng, start).Ok?
    ensures IsRun(m, policy, init, Iterate(m, policy, init, k, rng, start).value, k, rng, start)
  {
    if k > 0 {
      var prev := Iterate(m, policy, init, k - 1, rng, start);
      IterateIsRun(m, policy, init, k - 1, rng, start);
      AdvanceKeepsRun(m, policy, init, prev.value, k - 1, rng, start);
    }
  }

  lemma AdvanceKeepsRun(m: Model, policy: Policy, init: State, p: Progress, k: nat, rng: nat -> real, start: nat)
    requires IsRun(m, policy, init, p, k, rng, start)
    requires Advance(m, policy, p, rng).Ok?
    ensures IsRun(m, policy, init, Advance(m, policy, p, rng).value, k + 1, rng, start)
  {
    var q := Advance(m, policy, p, rng).value;
    if p.stopped {
      assert q == p;
    } else {
      var action := GetAction(p.state, policy);
      var step := Step(p.state, action, LookupCost(m.costs, p.state, action).value);
      FollowsPolicyAppend(m, policy, p.trace, step);
      LinkedAppend(m, p, step, rng, start);
      EndsAppend(m, init, p, k, rng, start, step, q);
      assert FollowsPolicy(m, policy, q.trace) && Linked(m, q.trace, rng, start) && Ends(m, init, q, k + 1, rng, start);
    }
  }

  lemma EndsAppend(m: Model, init: State, p: Progress, k: nat, rng: nat -> real, start: nat, step: Step, q: Progress)
    requires Ends(m, init, p, k, rng, start) && !p.stopped && step.state == p.state
    requires q.trace == p.trace + [step] && q.totalCost == p.totalCost + step.cost
    requires q.stopped ==> q.state == p.state && p.state in m.terminalStates && q.next == p.next
    requires !q.stopped ==>
               && p.state !in m.terminalStates && q.next == p.next + 1
               && SampleNextState(p.state, step.action, m.transitions, rng(p.next)) == Ok(q.state)
    ensures Ends(m, init, q, k + 1, rng, start)
  {
    TraceCostAppend(p.trace, step);
  }

  lemma FollowsPolicyAppend(m: Model, policy: Policy, trace: seq<Step>, step: Step)
    requires FollowsPolicy(m, policy, trace)
    requires step.action == GetAction(step.state, policy) && LookupCost(m.costs, step.state, step.action) == Ok(step.cost)
    ensures FollowsPolicy(m, policy, trace + [step])
  {
  }

  lemma LinkedAppend(m: Model, p: Progress, step: Step, rng: nat -> real, start: nat)
    requires Linked(m, p.trace, rng, start)
    requires !p.stopped && step.state == p.state && p.next == start + |p.trace|
    requires p.trace != [] ==>
               var last := p.trace[|p.trace| - 1];
               last.state !in m.terminalStates
               && SampleNextState(last.state, last.action, m.transitions, rng(start + |p.trace| - 1)) == Ok(p.state)
    ensures Linked(m, p.trace + [step], rng, start)
  {
  }

  lemma TraceCostAppend(trace: seq<Step>, step: Step)
    ensures TraceCost(trace + [step]) == TraceCost(trace) + step.cost
  {
    var w := StepCosts(trace + [step]);
    assert w[..|trace|] == StepCosts(trace);
  }

  /**
   * A terminal state is charged at most once, as the last charged step, and
   * the run then ends there: a run that reaches the step cap has charged no
   * terminal state at all.
   */
  lemma {:induction false} TerminalChargedOnce(m: Model, policy: Policy, init: State, k: nat, rng: nat -> real, start: nat)
    requires Iterate(m, policy, init, k, rng, start).Ok?
    ensures var p := Iterate(m, policy, init, k, rng, start).value;
            forall i :: 0 <= i < |p.trace| && p.trace[i].state in m.terminalStates ==>
              i == |p.trace| - 1 && p.stopped && p.state == p.trace[i].state
  {
    IterateIsRun(m, policy, init, k, rng, start);
  }

  /** With non-negative costs in the table, `total_cost` is non-negative. */
  lemma {:induction false} IterateCostNonNegative(m: Model, policy: Policy, init: State, k: nat, rng: nat -> real, start: nat)
    requires forall s, a :: s in m.costs && a in m.costs[s] ==> m.costs[s][a] >= 0.0
    requires Iterate(m, policy, init, k, rng, start).Ok?
    ensures Iterate(m, policy, init, k, rng, start).value.totalCost >= 0.0
  {
    var p := Iterate(m, policy, init, k, rng, start).value;
    IterateIsRun(m, policy, init, k, rng, start);
    forall i | 0 <= i < |p.trace|
      ensures p.trace[i].cost >= 0.0
    {
      assert LookupCost(m.costs, p.trace[i].state, p.trace[i].action) == Ok(p.trace[i].cost);
    }
    SumNonNegative(StepCosts(p.trace));
  }

  /** A run never goes back in the draw stream. */
  lemma RunDrawsForward(m: Model, policy: Policy, maxSteps: nat, rng: nat -> real, start: nat)
    requires Run(m, policy, maxSteps, rng, start).Ok?
    ensures start <= Run(m, policy, maxSteps, rng, start).value.next <= start + maxSteps
  {
    IterateIsRun(m, policy, m.initialState, maxSteps, rng, start);
  }

  /**
   * A batch of n runs holds n records numbered 0 to n - 1 in order, each the
   * final state and cost of one run from the initial state, reading the draw
   * stream from some point at or after where the batch started.
   */
  lemma {:induction false} SimulateRecords(m: Model, policy: Policy, n: nat, maxSteps: nat, rng: nat -> real, next0: nat)
    requires Simulate(m, policy, n, maxSteps, rng, next0).Ok?
    ensures var b := Simulate(m, policy, n, maxSteps, rng, next0).value;
            && |b.records| == n
            && next0 <= b.next
            && (forall i :: 0 <= i < n ==> b.records[i].run == i)
            && (forall i :: 0 <= i < n ==>
                  exists s {:trigger Run(m, policy, maxSteps, rng, s)} ::
                    && next0 <= s
                    && Run(m, policy, maxSteps, rng, s).Ok?
                    && b.records[i].finalState == Run(m, policy, maxSteps, rng, s).value.state
                    && b.records[i].totalCost == Run(m, policy, maxSteps, rng, s).value.totalCost)
  {
    if n > 0 {
      var prev := Simulate(m, policy, n - 1, maxSteps, rng, next0).value;
      SimulateRecords(m, policy, n - 1, maxSteps, rng, next0);
      RunDrawsForward(m, policy, maxSteps, rng, prev.next);
      var b := Simulate(m, policy, n, maxSteps, rng, next0).value;
      assert b.records == prev.records + [b.records[n - 1]];
      forall i | 0 <= i < n
        ensures exists s {:trigger Run(m, policy, maxSteps, rng, s)} ::
                    && next0 <= s
                    && Run(m, policy, maxSteps, rng, s).Ok?
                    && b.records[i].finalState == Run(m, policy, maxSteps, rng, s).value.state
                    && b.records[i].totalCost == Run(m, policy, maxSteps, rng, s).value.totalCost
      {
        if i == n - 1 {
          assert Run(m, policy, maxSteps, rng, prev.next).Ok?;
        } else {
          assert b.records[i] == prev.records[i];
        }
      }
    }
  }

  /**
   * A set of states that holds the initial state and that no run can leave
   * or fail in: each has a cost for the policy's action there and, unless
   * terminal, a transition row the draw succeeds on, whose keys all lie in
   * the set.
   */
  ghost predicate SafeStates(m: Model, policy: Policy, safe: set<State>)
  {
    && m.initialState in safe
    && forall s :: s in safe ==>
         && LookupCost(m.costs, s, GetAction(s, policy)).Ok?
         && (s !in m.terminalStates ==>
               && CanSample(s, GetAction(s, policy), m.transitions)
               && forall t :: t in m.transitions[s][GetAction(s, policy)].keys ==> t in safe)
  }

  /** Inside such a set, every run succeeds, whatever the draws, and stays in the set. */
  lemma {:induction false} IterateSucceeds(m: Model, policy: Policy, safe: set<State>, k: nat, rng: nat -> real, start: nat)
    requires SafeStates(m, policy, safe)
    ensures Iterate(m, policy, m.initialState, k, rng, start).Ok?
    ensures Iterate(m, policy, m.initialState, k, rng, start).value.state in safe
  {
    if k > 0 {
      IterateSucceeds(m, policy, safe, k - 1, rng, start);
      IterateNext(m, policy, m.initialState, k - 1, rng, start);
      var p := Iterate(m, policy, m.initialState, k - 1, rng, start).value;
      if !p.stopped && p.state !in m.terminalStates {
        var action := GetAction(p.state, policy);
        assert SampleNextState(p.state, action, m.transitions, rng(p.next)).Ok?;
      }
    }
  }

  /** Inside such a set, a whole batch succeeds: `run_simulation` raises nothing. */
  lemma {:induction false} SimulateSucceeds(m: Model, policy: Policy, safe: set<State>, n: nat, maxSteps: nat, rng: nat -> real, next0: nat)
    requires SafeStates(m, policy, safe)
    ensures Simulate(m, policy, n, maxSteps, rng, next0).Ok?
  {
    if n > 0 {
      SimulateSucceeds(m, policy, safe, n - 1, maxSteps, rng, next0);
      IterateSucceeds(m, policy, safe, maxSteps, rng, Simulate(m, policy, n - 1, maxSteps, rng, next0).value.next);
    }
  }

  /** A run that has failed or stopped stays as it is for the remaining iterations. */
  lemma {:induction false} IterateSettled(m: Model, policy: Policy, init: State, k1: nat, k2: nat, rng: nat -> real, start: nat)
    requires k1 <= k2
    requires var w := Iterate(m, policy, init, k1, rng, start); w.Err? || w.value.stopped
    ensures Iterate(m, policy, init, k2, rng, start) == Iterate(m, policy, init, k1, rng, start)
    decreases k2
  {
    if k1 < k2 {
      IterateSettled(m, policy, init, k1, k2 - 1, rng, start);
    }
  }

  /** Once a run has failed, later runs do not happen. */
  lemma {:induction false} SimulateErrPersists(m: Model, policy: Policy, n1: nat, n2: nat, maxSteps: nat, rng: nat -> real, next0: nat)
    requires n1 <= n2
    requires Simulate(m, policy, n1, maxSteps, rng, next0).Err?
    ensures Simulate(m, policy, n2, maxSteps, rng, next0) == Simulate(m, policy, n1, maxSteps, rng, next0)
    decreases n2
  {
    if n1 < n2 {
      SimulateErrPersists(m, policy, n1, n2 - 1, maxSteps, rng, next0);
    }
  }
}

=== FILE: sorting.dfy ===
/**
 * Ordering rows by a numeric column, as `DataFrame.sort_values` does, and
 * keeping the first rows, as `DataFrame.head` does.
 */
module Sorting {

  /** The keys of the rows never decrease. */
  predicate SortedBy<T>(xs: seq<T>, key: T -> real)
  {
    forall i, j :: 0 <= i < j < |xs| ==> key(xs[i]) <= key(xs[j])
  }

  /** Put x after the last row whose key is at most x's. */
  function Insert<T>(x: T, xs: seq<T>, key: T -> real): (r: seq<T>)
    ensures |r| == |xs| + 1
  {
    if xs == [] || key(xs[|xs| - 1]) <= key(x) then xs + [x]
    else Insert(x, xs[..|xs| - 1], key) + [xs[|xs| - 1]]
  }

  /** Insertion sort: the rows in ascending order of their keys, rows with equal keys in their original order. */
  function SortBy<T>(xs: seq<T>, key: T -> real): (r: seq<T>)
    ensures |r| == |xs|
  {
    if xs == [] then [] else Insert(xs[|xs| - 1], SortBy(xs[..|xs| - 1], key), key)
  }

  /** `head(n)`: the first n rows, or all of them when there are fewer. */
  function Head<T>(xs: seq<T>, n: nat): (r: seq<T>)
    ensures |r| == if n < |xs| then n else |xs|
    ensures forall i :: 0 <= i < |r| ==> r[i] == xs[i]
  {
    if n < |xs| then xs[..n] else xs
  }

  lemma {:induction false} InsertPermutes<T>(x: T, xs: seq<T>, key: T -> real)
    ensures multiset(Insert(x, xs, key)) == multiset(xs) + multiset{x}
  {
    if !(xs == [] || key(xs[|xs| - 1]) <= key(x)) {
      var init := xs[..|xs| - 1];
      assert xs == init + [xs[|xs| - 1]];
      InsertPermutes(x, init, key);
    }
  }

  lemma {:induction false} InsertSorted<T>(x: T, xs: seq<T>, key: T -> real)
    requires SortedBy(xs, key)
    ensures SortedBy(Insert(x, xs, key), key)
  {
    if !(xs == [] || key(xs[|xs| - 1]) <= key(x)) {
      var init := xs[..|xs| - 1];
      var last := xs[|xs| - 1];
      var front := Insert(x, init, key);
      InsertSorted(x, init, key);
      InsertPermutes(x, init, key);
      forall i | 0 <= i < |front|
        ensures key(front[i]) <= key(last)
      {
        assert front[i] in multiset(init) + multiset{x};
        if front[i] != x {
          var j :| 0 <= j < |init| && init[j] == front[i];
        }
      }
    }
  }

  /** The sorted rows are in ascending order and are the same rows, each as often as before. */
  lemma {:induction false} SortByCorrect<T>(xs: seq<T>, key: T -> real)
    ensures SortedBy(SortBy(xs, key), key)
    ensures multiset(SortBy(xs, key)) == multiset(xs)
  {
    if xs != [] {
      var init := xs[..|xs| - 1];
      SortByCorrect(init, key);
      InsertSorted(xs[|xs| - 1], SortBy(init, key), key);
      InsertPermutes(xs[|xs| - 1], SortBy(init, key), key);
      assert xs == init + [xs[|xs| - 1]];
    }
  }

  /**
   * The first n rows of a sorted list are the n smallest: each kept row's key
   * is at most each dropped row's, and the kept rows are still sorted.
   */
  lemma HeadOfSorted<T>(xs: seq<T>, key: T -> real, n: nat)
    requires SortedBy(xs, key)
    ensures var h := Head(xs, n);
            && SortedBy(h, key)
            && (forall i, j :: 0 <= i < |h| <= j < |xs| ==> key(xs[i]) <= key(xs[j]))
            && multiset(h) <= multiset(xs)
  {
    var h := Head(xs, n);
    assert xs == h + xs[|h|..];
  }
}

=== FILE: utils.dfy ===
/**
 * The two helpers of src/utils.py: looking up a policy's action and drawing
 * the next state. The global random generator is replaced by the one number
 * `u` in [0, 1) that `random.random()` returns for the draw.
 */
module Utils {
  import opened Seqs
  import opened Dicts
  import opened Mdp

  /** The action a policy takes in `state`, falling back to no intervention. */
  function GetAction(state: State, policy: Policy): (a: Action)
    ensures state in policy.entries ==> a == policy.entries[state]
    ensures state !in policy.entries ==> a == NoIntervention
    ensures a in policy.entries.Values || a == NoIntervention
  {
    if state in policy.entries then policy.entries[state] else NoIntervention
  }

  /**
   * `bisect_right(cum_weights, x, 0, n - 1)` over the running sums of `w`,
   * scanned from position i with `acc` the sum of the weights before i: the
   * first position whose running sum exceeds x, or the last position.
   */
  function PickIndex(w: seq<real>, x: real, i: nat, acc: real): (r: nat)
    requires i < |w|
    ensures i <= r < |w|
    decreases |w| - i
  {
    if i == |w| - 1 || acc + w[i] > x then i
    else PickIndex(w, x, i + 1, acc + w[i])
  }

  /**
   * `sample_next_state`: look up the row for (state, action) and let
   * `random.choices(keys, weights)` pick a key with the draw u.
   */
  function SampleNextState(current: State, action: Action, transitions: TransitionTable, u: real): (r: Result<State>)
    ensures r.Ok? <==> CanSample(current, action, transitions)
    ensures r.Ok? ==> r.value in transitions[current][action].keys
    ensures (current !in transitions || action !in transitions[current]) <==> r == Err(MissingTransition(current, action))
  {
    if current !in transitions || action !in transitions[current] then Err(MissingTransition(current, action))
    else
      var row := transitions[current][action];
      if |row.keys| == 0 then Err(EmptyTransitionRow(current, action))
      else if Sum(Values(row, 0.0)) <= 0.0 then Err(NoPositiveWeight(current, action))
      else Ok(row.keys[PickedIndex(row, u)])
  }

  /**
   * The draw succeeds: the row for (current, action) exists, is not empty
   * (else `random.choices` raises IndexError) and has a positive total
   * weight (else it raises ValueError).
   */
  predicate CanSample(current: State, action: Action, transitions: TransitionTable)
  {
    && current in transitions && action in transitions[current]
    && |transitions[current][action].keys| > 0
    && Sum(Values(transitions[current][action], 0.0)) > 0.0
  }

  /**
   * The two failures inside `random.choices`: an empty row raises
   * IndexError, a row whose weights total 0 or less raises ValueError.
   */
  lemma SampleFailures(current: State, action: Action, transitions: TransitionTable, u: real)
    ensures var r := SampleNextState(current, action, transitions, u);
            && (r == Err(EmptyTransitionRow(current, action)) <==>
                  current in transitions && action in transitions[current] && |transitions[current][action].keys| == 0)
            && (r == Err(NoPositiveWeight(current, action)) <==>
                  && current in transitions && action in transitions[current]
                  && |transitions[current][action].keys| > 0
                  && Sum(Values(transitions[current][action], 0.0)) <= 0.0)
  {
  }

  /** The point `random() * total` that the weighted choice looks up among the running sums. */
  function DrawPoint(u: real, total: real): real
  {
    u * total
  }

  /** The index of the key that `SampleNextState` picked. */
  function PickedIndex(row: TransitionRow, u: real): (i: nat)
    requires |row.keys| > 0
    ensures i < |row.keys|
  {
    var w := Values(row, 0.0);
    PickIndex(w, DrawPoint(u, Sum(w)), 0, 0.0)
  }

  /** A draw in [0, 1) scales the total weight to a point inside [0, total). */
  lemma ScaledDraw(u: real, total: real)
    requires 0.0 <= u < 1.0 && total > 0.0
    ensures 0.0 <= DrawPoint(u, total) < total
  {
    assert u * total < 1.0 * total;
  }

  /** The first running sum above x marks the slice of the weights that contains x. */
  lemma {:induction false} PickIndexSlice(w: seq<real>, x: real, i: nat, acc: real)
    requires i < |w| && acc == Sum(w[..i])
    requires acc <= x < Sum(w)
    ensures var r := PickIndex(w, x, i, acc);
            Sum(w[..r]) <= x < Sum(w[..r + 1]) && w[r] > 0.0
    decreases |w| - i
  {
    assert w[..i + 1][..i] == w[..i];
    if i == |w| - 1 {
      assert w[..i + 1] == w;
    } else if acc + w[i] <= x {
      PickIndexSlice(w, x, i + 1, acc + w[i]);
    }
  }

  /**
   * The draw selects the key whose slice of the cumulative weight contains
   * u * total: keys are chosen in proportion to their weights, and a key of
   * weight zero or less is never chosen.
   */
  lemma SampleRespectsWeights(current: State, action: Action, transitions: TransitionTable, u: real)
    requires 0.0 <= u < 1.0
    requires SampleNextState(current, action, transitions, u).Ok?
    ensures var row := transitions[current][action];
            var w := Values(row, 0.0);
            var i := PickedIndex(row, u);
            && row.keys[i] == SampleNextState(current, action, transitions, u).value
            && Sum(w[..i]) <= DrawPoint(u, Sum(w)) < Sum(w[..i + 1])
            && w[i] > 0.0
            && (Valid(row) ==> row.entries[row.keys[i]] > 0.0)
  {
    var row := transitions[current][action];
    var w := Values(row, 0.0);
    ScaledDraw(u, Sum(w));
    assert w[..0] == [];
    PickIndexSlice(w, DrawPoint(u, Sum(w)), 0, 0.0);
    if Valid(row) {
      ValuesAt(row, 0.0, PickedIndex(row, u));
    }
  }
}

=== FILE: voi.dfy ===
/**
 * The value of information of each policy, as 3_add_voi_to_metadata.py and
 * the first part of 5_analysis_extended.py compute it: the baseline is the
 * average cost of the first summary row whose intervention cost is 0, a
 * policy's VoI is how much less than the baseline it costs on average, and
 * its VoI per cost divides that by the intervention cost when it is positive.
 */
module Voi {
  import opened Mdp
  import opened Driver

  /** The position of the first row with intervention cost 0, or the number of rows if there is none. */
  function BaselineIndex(rows: seq<SummaryRow>): (i: nat)
    ensures i <= |rows|
    ensures i < |rows| ==> rows[i].interventionCost == 0.0
    ensures forall j :: 0 <= j < i ==> rows[j].interventionCost != 0.0
  {
    if rows == [] then 0
    else if rows[0].interventionCost == 0.0 then 0
    else 1 + BaselineIndex(rows[1..])
  }

  /**
   * `df[df["intervention_cost"] == 0]["avg_total_cost"].values[0]`: the
   * average cost of the first zero-cost row; with no such row `.values[0]`
   * raises an IndexError.
   */
  function BaselineCost(rows: seq<SummaryRow>): (r: Result<real>)
    ensures r.Err? <==> forall j :: 0 <= j < |rows| ==> rows[j].interventionCost != 0.0
    ensures r.Err? ==> r.error == NoBaselineRow
    ensures r.Ok? ==> exists i :: && 0 <= i < |rows| && rows[i].interventionCost == 0.0 && r.value == rows[i].avgTotalCost
                                 && forall j :: 0 <= j < i ==> rows[j].interventionCost != 0.0
  {
    var i := BaselineIndex(rows);
    if i == |rows| then Err(NoBaselineRow) else Ok(rows[i].avgTotalCost)
  }

  /** `VoI = baseline_cost - avg_total_cost`, not clamped at 0. */
  function VoI(baseline: real, avgTotalCost: real): (v: real)
    ensures v + avgTotalCost == baseline
  {
    baseline - avgTotalCost
  }

  /** `VoI / intervention_cost if intervention_cost > 0 else 0.0`. */
  function VoIPerCost(voi: real, interventionCost: real): (r: real)
    ensures interventionCost > 0.0 ==> r * interventionCost == voi
    ensures interventionCost <= 0.0 ==> r == 0.0
  {
    if interventionCost > 0.0 then voi / interventionCost else 0.0
  }

  /** A metadata entry after the loop body has added its two fields. */
  function WithVoI(e: MetaEntry, baseline: real): (r: MetaEntry)
    ensures r.voi == Some(VoI(baseline, e.avgTotalCost))
    ensures r.voiPerCost == Some(VoIPerCost(VoI(baseline, e.avgTotalCost), e.interventionCost))
    ensures r.policyId == e.policyId && r.interveneStates == e.interveneStates
    ensures r.avgTotalCost == e.avgTotalCost && r.interventionCost == e.interventionCost
  {
    var v := VoI(baseline, e.avgTotalCost);
    e.(voi := Some(v), voiPerCost := Some(VoIPerCost(v, e.interventionCost)))
  }

  /** `for p in metadata: p["VoI"] = ...; p["VoI_per_cost"] = ...`, updating each entry in place. */
  method AddVoI(metadata: array<MetaEntry>, baseline: real)
    modifies metadata
    ensures metadata[..] == MetadataWithVoI(old(metadata[..]), baseline)
  {
    for k := 0 to metadata.Length
      invariant forall i :: 0 <= i < k ==> metadata[i] == WithVoI(old(metadata[i]), baseline)
      invariant forall i :: k <= i < metadata.Length ==> metadata[i] == old(metadata[i])
    {
      metadata[k] := WithVoI(metadata[k], baseline);
    }
  }

  /**
   * The whole script: find the baseline in the summary, then update every
   * metadata entry; without a baseline the script fails before touching
   * the metadata.
   */
  method AddVoIToMetadata(summary: seq<SummaryRow>, metadata: array<MetaEntry>) returns (r: Result<real>)
    modifies metadata
    ensures r == BaselineCost(summary)
    ensures r.Err? ==> metadata[..] == old(metadata[..])
    ensures r.Ok? ==> metadata[..] == MetadataWithVoI(old(metadata[..]), r.value)
  {
    r := BaselineCost(summary);
    if r.Ok? {
      AddVoI(metadata, r.value);
    }
  }

  /** The values the loop writes, as a list: the same entries, in the same order, each with its VoI. */
  function MetadataWithVoI(metadata: seq<MetaEntry>, baseline: real): (r: seq<MetaEntry>)
    ensures |r| == |metadata|
    ensures forall i :: 0 <= i < |metadata| ==> r[i] == WithVoI(metadata[i], baseline)
  {
    seq(|metadata|, i requires 0 <= i < |metadata| => WithVoI(metadata[i], baseline))
  }

  /** A policy with the baseline's average cost has VoI 0, and so VoI per cost 0. */
  lemma BaselineHasNoValue(rows: seq<SummaryRow>, e: MetaEntry)
    requires BaselineCost(rows).Ok?
    requires e.avgTotalCost == BaselineCost(rows).value
    ensures WithVoI(e, BaselineCost(rows).value).voi == Some(0.0)
    ensures WithVoI(e, BaselineCost(rows).value).voiPerCost == Some(0.0)
  {
  }
}
